=== FILE: README.md ===
# Todo list synchronisation, modelled in Dafny

This project models the bidirectional reconciliation pass of a small todo-list service
(`SyncService`), together with the stores behind it.

## The sync pass

The pass reads two snapshots: the local lists, including deleted ones, and the remote
lists. It then runs two phases.

- **Inbound (remote to local).** Each remote list is matched against the local lists
  (`Matching`).
  - With no match, the list is created locally and the new list is appended to the
    working snapshot.
  - With a match whose name differs, the name is written into the working copy and
    then pulled into the local store.
  - Then every remote item is either created locally or has its description and
    completion pulled.
- **Outbound (local to remote).** Each list of the working snapshot is handled in one
  of these ways:
  - soft-deleted locally, when it is linked but its remote counterpart is gone;
  - pushed, when it is new;
  - deleted remotely, when it is marked deleted;
  - renamed remotely.
  The same four cases apply to its items.

Each completed action raises one of six counters in a `SyncResult`. The report is the
field-wise sum of the two phase results. A call that throws is caught per list or per
item, and the loop goes on.

### How the pass is modelled

The engine is modelled against its gateways, the local list and item services and the
remote API. What they do is a parameter, `SyncSpec.Gateways`. For the n-th request of a
run it says two things:

- whether the request throws;
- what the gateway hands back: the created local list, the created remote list, or the
  returned remote item.

Each per-entity helper of the service is an `Action`. Running the pass yields the
sequence of attempted actions (the trace) and the report.

- `SyncSpec` gives the phases as folds.
- `SyncService` runs them as loops. Each loop is proved equal to its fold.
- `SyncProperties` proves what the pass guarantees. The headline lemma is
  `SyncCountsCompletedActions`: every reported counter equals the number of completed
  actions of its kind. `SettledSnapshotsAreQuiet` states when a run does nothing: over
  snapshots in which every list and item resolves to an agreeing, live counterpart, a run
  issues no action and reports zero, whatever the gateways would do.

### The stores

- `TodoListServices.TodoListService` and `TodoItemServices.TodoItemService` are classes
  over a shared `TodoData.TodoContext`. The context holds both tables, the identity
  counters and a clock.
- `FakeExternal.FakeExternalAPI` holds an in-memory item list. Its sync request upserts
  items by ExternalId.

### Where a re-run is not quiet, and other surprises

The model follows the code.

- **A linked list that is already soft-deleted is re-deleted on every run.** This
  happens when the list's remote counterpart is gone.
  - The outbound phase calls the local delete and counts `ListDeleted`.
  - The delete finds no active list and returns false. The pass ignores that result.
  - So a second run over the resulting store reports the same deletion
    (`SyncProperties.DeletedLinkedListIsCountedAgain`; that the store is left as it was
    follows from `TodoData.DeletedListIsNotActive` with the contract of
    `TodoListServices.TodoListService.DeleteTodoList`).
  - The same holds for items.
- **A pulled item change is pushed back with the old values.**
  - An inbound item update does not refresh the working snapshot. A list rename does.
  - So the outbound phase sees the pair as still changed. It pushes the old local
    description and completion back to the remote item, and counts `ItemUpdates` again
    (`SyncProperties.PulledItemChangeIsPushedBack`).
  - Four tests in `TodoApi.Tests/Sync/SyncServiceTests.cs` cover a changed linked item.
    Each expects `ItemUpdates == 1`, and the model gives that figure for two of them:
    - at 424-485 the inbound update throws, and the model gives 1 (the push);
    - at 741-806 the names differ as well. The rename completes and refreshes the name,
      the inbound item update throws, and the push completes: the model gives 1;
    - at 231-282 and at 523-579 the inbound update completes, and the model gives 2
      (pull and push).
  - The tests use the real mapping profile. `TodoApi.Services/MappingProfile.cs:10-36`
    has no map from the item DTO to `UpdateExternalTodoItem`, and none from the list DTO
    to `UpdateTodoListDto`. A missing map may make the push throw, the rename throw
    (after the working copy has taken the remote name), or both. In the order 424-485,
    741-806, 231-282, 523-579 the three readings give:
    - rename throws, push works: 1, 1, 1 and 2 (a throwing rename skips that list's
      inbound items);
    - push throws, rename works: 0, 0, 1 and 1;
    - both throw: 0, 0, 0 and 1.
  - So no single reading of the mapper makes all four tests pass. The model keeps the
    mapping working (see "Left out") and predicts 1, 1, 2 and 2 in the same order.
- **The remote id written back after a push is not stored.** The local update methods
  store only Name (lists) and Title, Description and Completed (items), never ExternalId.
- **A created list's timestamps come from one clock reading.** The code reads
  `DateTime.Now` twice, UpdatedAt first and CreatedAt second.
- **The item DTO class declares neither ExternalId nor Deleted**
  (`TodoApi.Services/Dtos/TodoItemDto.cs`). The engine reads both fields, so the model's
  item DTO carries the item row's fields.

## Model

| member | source | states |
|---|---|---|
| Matching.FindLocalList | TodoApi.SyncServices/Services/SyncService.cs:122-126 | the first local list whose id string equals the remote SourceId or whose ExternalId equals the remote Id; no earlier list matches; None exactly when no list matches |
| Entities.IdStringInjective | TodoApi.SyncServices/Services/SyncService.cs:122-126 | two ids have the same decimal form iff they are equal, so a remote SourceId names at most one local id |
| Matching.FindLocalItem | TodoApi.SyncServices/Services/SyncService.cs:170-174 | the same two-key rule, first match, None when nothing matches, for local items |
| Matching.FindExternalList | TodoApi.SyncServices/Services/SyncService.cs:196-200 | the same rule from the local side: the first remote list linked to the local list, None when none is |
| Matching.FindExternalItem | TodoApi.SyncServices/Services/SyncService.cs:246-247 | the first remote item linked to the local item, None when none is |
| Matching.MatchingIsSymmetric | TodoApi.SyncServices/Services/SyncService.cs:196-200 | a linked pair with no earlier link on either side is found from both sides |
| Matching.ItemMatchingIsSymmetric | TodoApi.SyncServices/Services/SyncService.cs:170-174 | a linked item pair with no earlier link on either side is found by the inbound and the outbound lookup alike (the outbound one at 246-247) |
| Matching.ItemChangedIgnoresTitle | TodoApi.SyncServices/Services/SyncService.cs:305-309 | local items that agree on description and completion compare alike against any remote item, whatever their titles; a local item given the remote values is unchanged |
| Matching.ListChangedDependsOnName | TodoApi.SyncServices/Services/SyncService.cs:311-314 | local lists with the same name compare alike, whatever their items, ids or deleted flag; after copying the remote name the pair is unchanged |
| SyncResults.Bump | TodoApi.SyncServices/Services/SyncService.cs:132 | a counter increment raises exactly that counter by one and leaves the other five |
| SyncResults.CombineResults | TodoApi.SyncServices/Services/SyncService.cs:316-327 | every counter of the sum is the sum of the two counters |
| SyncResults.ZeroIsNeutral | TodoApi.SyncServices/Services/SyncService.cs:316-327 | adding an empty result on either side changes nothing |
| SyncService.SyncExternalItem | TodoApi.SyncServices/Services/SyncService.cs:150-161 | one remote item: create locally when no local item is linked, update the linked local item when description or completion differ, otherwise nothing; a throwing call only records the failed attempt |
| SyncService.SyncItemsFromExternalList | TodoApi.SyncServices/Services/SyncService.cs:144-168 | the inbound items loop computes the inbound items fold |
| SyncService.SyncExternalList | TodoApi.SyncServices/Services/SyncService.cs:65-84 | one remote list: create and append, or rename the working copy and update, then items; a throwing list call skips the items |
| SyncService.SyncFromExternalToLocal | TodoApi.SyncServices/Services/SyncService.cs:57-88 | the inbound loop computes the inbound fold, and its result counts exactly the completed actions of its trace |
| SyncService.HandleMissingExternalItem | TodoApi.SyncServices/Services/SyncService.cs:265-283 | a local item without a remote counterpart: delete locally, push, or nothing, as the fold says |
| SyncService.SyncExistingItemToExternal | TodoApi.SyncServices/Services/SyncService.cs:285-299 | a local item with a counterpart: delete remotely, push changes, or nothing |
| SyncService.SyncLocalItem | TodoApi.SyncServices/Services/SyncService.cs:246-257 | one local item of the outbound loop: look up its remote counterpart, then the missing-item or existing-item handling |
| SyncService.SyncLocalItemsToExternal | TodoApi.SyncServices/Services/SyncService.cs:240-263 | the outbound items loop computes the outbound items fold |
| SyncService.HandleMissingExternalList | TodoApi.SyncServices/Services/SyncService.cs:202-219 | a local list without a remote counterpart, as the fold says |
| SyncService.SyncLocalListToExternal | TodoApi.SyncServices/Services/SyncService.cs:221-238 | a local list with a counterpart: remote delete and return, or rename if changed, then items |
| SyncService.SyncFromLocalToExternal | TodoApi.SyncServices/Services/SyncService.cs:90-116 | the outbound loop computes the outbound fold, and its result counts exactly the completed actions of its trace |
| SyncService.SyncTodoLists | TodoApi.SyncServices/Services/SyncService.cs:35-55 | None iff a snapshot fetch threw; otherwise the sum of the phase results, which equals the tally of the whole trace |
| SyncProperties.SyncCountsCompletedActions | TodoApi.SyncServices/Services/SyncService.cs:35-55 | a run reports None iff a fetch threw, and then issues nothing; otherwise each counter equals the number of completed actions of its kind |
| SyncProperties.TallyConcat | TodoApi.SyncServices/Services/SyncService.cs:45-48 | the tally of two phases run one after the other is the field-wise sum of their tallies |
| SyncProperties.PerformFacts | TodoApi.SyncServices/Services/SyncService.cs:128-134 | one action appends one attempt and raises its counter by one exactly when the call completed |
| SyncProperties.InboundItemsFacts | TodoApi.SyncServices/Services/SyncService.cs:144-168 | the inbound items loop issues only item actions and leaves the list counters alone |
| SyncProperties.OutboundItemsFacts | TodoApi.SyncServices/Services/SyncService.cs:240-263 | the outbound items loop issues only item actions and leaves the list counters alone |
| SyncProperties.SyncExternalListAccounted | TodoApi.SyncServices/Services/SyncService.cs:65-84 | handling one remote list keeps the result equal to the tally of the trace |
| SyncProperties.InboundAccounted | TodoApi.SyncServices/Services/SyncService.cs:57-88 | the inbound phase keeps the result equal to the tally of the trace |
| SyncProperties.SyncLocalListAccounted | TodoApi.SyncServices/Services/SyncService.cs:96-112 | handling one local list keeps the result equal to the tally of the trace |
| SyncProperties.OutboundAccounted | TodoApi.SyncServices/Services/SyncService.cs:90-116 | the outbound phase keeps the result equal to the tally of the trace |
| SyncProperties.UnmatchedExternalListIsCreated | TodoApi.SyncServices/Services/SyncService.cs:69-73 | an unmatched remote list gives exactly one local create; on success ListCreations rises by one and the created list is appended to the snapshot; on failure nothing else happens |
| SyncProperties.ChangedExternalListIsPulled | TodoApi.SyncServices/Services/SyncService.cs:136-142 | a changed matched list is renamed in the working copy even if the store call throws; ListUpdates rises only if it completes; the pair is no longer changed |
| SyncProperties.InboundItemDecision | TodoApi.SyncServices/Services/SyncService.cs:150-191 | for every remote item: no linked local item gives one local create with the remote description and completion (ItemCreations); a linked, differing item gives one update of that item keeping its title and taking the remote description and completion (ItemUpdates); a linked, agreeing item gives nothing; each counter rises only when its call completes |
| SyncProperties.AgreeingListIsNotPushed | TodoApi.SyncServices/Services/SyncService.cs:230-237 | a live list whose name agrees gets no list action outbound: only item actions, list counters unchanged |
| SyncProperties.ChangedListIsPushed | TodoApi.SyncServices/Services/SyncService.cs:230-237 | a live list whose name differs from its counterpart issues one remote rename with the local name; ListUpdates rises only if it completes; its items then run, with item actions only, and are skipped when the rename threw |
| SyncProperties.ItemsOfNewListAreCreated | TodoApi.SyncServices/Services/SyncService.cs:148-157 | against a list without items, every remote item is created locally, in order, and ItemCreations rises by their number |
| SyncProperties.RemoteOnlyListIsCreatedWithItems | TodoApi.SyncServices/Services/SyncService.cs:69-79 | a remote-only list yields one list create and one item create per remote item; no other counter moves |
| SyncProperties.FailedListDoesNotStopTheLoop | TodoApi.SyncServices/Services/SyncService.cs:63-85 | when the first list create throws, the second remote list is still created and is the only one counted |
| SyncProperties.MissingExternalListDecision | TodoApi.SyncServices/Services/SyncService.cs:202-219 | no counterpart: linked means local delete (ListDeleted), new and live means push (ListCreations), new and deleted means nothing |
| SyncProperties.DeletedListIsDeletedRemotely | TodoApi.SyncServices/Services/SyncService.cs:223-228 | a matched deleted list gives one remote delete (ListDeleted) and nothing else: no rename, no items |
| SyncProperties.LocalItemDecision | TodoApi.SyncServices/Services/SyncService.cs:265-299 | the six-case outbound item table, each counter rising only when its action completes |
| SyncProperties.NewExternalListScenario | TodoApi.Tests/Sync/SyncServiceTests.cs:64-102 | one new remote list reaching an empty store: result is one list creation and nothing else |
| SyncProperties.DeletedLinkedListIsCountedAgain | TodoApi.SyncServices/Services/SyncService.cs:202-208 | a run over a linked list that is already deleted, with no remote counterpart, issues its local delete and counts ListDeleted again |
| SyncProperties.PulledItemChangeIsPushedBack | TodoApi.SyncServices/Services/SyncService.cs:184-191 | a pulled item change is followed by a push of the old local values; ItemUpdates is 1 or 2 |
| SyncProperties.SettledSnapshotsAreQuiet | TodoApi.SyncServices/Services/SyncService.cs:35-55 | over snapshots in which every remote list and item resolves to an agreeing local one and every local list and item is live and resolves to an agreeing remote one, a run issues no action and reports zero, whatever the gateways do |
| SyncProperties.SettledInboundDoesNothing | TodoApi.SyncServices/Services/SyncService.cs:57-88 | the inbound phase over remote lists that all resolve to agreeing local lists with agreeing items issues nothing and leaves the snapshot as it is |
| SyncProperties.SettledOutboundDoesNothing | TodoApi.SyncServices/Services/SyncService.cs:90-116 | the outbound phase over live local lists that all resolve to agreeing remote lists with live, agreeing items issues nothing |
| SyncProperties.LinkedAgreeingPairIsSettled | TodoApi.SyncServices/Services/SyncService.cs:122-126 | a live list linked by ExternalId to a remote list of the same name, with one live item linked the same way to an agreeing remote item, is in agreement |
| TodoData.ItemsOf | TodoApi.Services/Services/TodoListService.cs:23 | the items a list query includes: the list's own, deleted ones only if asked for |
| TodoData.SoftDeletedListIsGone | TodoApi.Services/Services/TodoListService.cs:70-86 | after a soft delete no active list row has that id |
| TodoData.SoftDeletedItemIsGone | TodoApi.Services/Services/TodoItemService.cs:79-98 | after a soft delete no active item row has that (list id, item id) |
| TodoData.DeletedListIsNotActive | TodoApi.Services/Services/TodoListService.cs:70-86 | a list id whose only row is already deleted has no active row, so a repeated delete finds nothing and changes nothing |
| TodoListServices.TodoListService.GetTodoLists | TodoApi.Services/Services/TodoListService.cs:19-28 | every visible list appears with its visible items and nothing else does; deleted lists and items only when includeDeleted |
| TodoListServices.TodoListService.GetTodoList | TodoApi.Services/Services/TodoListService.cs:30-38 | None iff no active list has the id; otherwise that list with its active items |
| TodoListServices.TodoListService.CreateTodoList | TodoApi.Services/Services/TodoListService.cs:40-51 | one active row appended under a fresh id, CreatedAt equal to UpdatedAt; nothing else changes; the store invariant holds |
| TodoListServices.TodoListService.UpdateTodoList | TodoApi.Services/Services/TodoListService.cs:53-68 | true iff an active list has the id; then only its Name and UpdatedAt change; otherwise nothing changes |
| TodoListServices.TodoListService.DeleteTodoList | TodoApi.Services/Services/TodoListService.cs:70-86 | true iff an active list has the id; then only that row is soft-deleted; afterwards a repeat returns false |
| TodoItemServices.TodoItemService.GetTodoItems | TodoApi.Services/Services/TodoItemService.cs:20-28 | exactly the items of the list that are not deleted; empty for an unknown list |
| TodoItemServices.TodoItemService.GetTodoItem | TodoApi.Services/Services/TodoItemService.cs:30-38 | None unless an active item matches both list id and item id |
| TodoItemServices.TodoItemService.CreateTodoItem | TodoApi.Services/Services/TodoItemService.cs:40-54 | one active item row under a fresh id, filed under the DTO's list id; rejected with no change when that list row does not exist |
| TodoItemServices.TodoItemService.UpdateTodoItem | TodoApi.Services/Services/TodoItemService.cs:56-77 | true iff an active item matches; then only Title, Description, Completed and UpdatedAt change; otherwise nothing changes |
| TodoItemServices.TodoItemService.DeleteTodoItem | TodoApi.Services/Services/TodoItemService.cs:79-98 | true iff an active item matches; then it is soft-deleted; afterwards a repeat returns false |
| FakeExternal.Upsert | TodoApi.SyncServices/ExternalAPI/FakeExternalAPI.cs:35-44 | the first entry with the item's ExternalId takes its Name and IsComplete; an unseen ExternalId is appended; nothing else changes |
| FakeExternal.UpsertIsIdempotent | TodoApi.SyncServices/ExternalAPI/FakeExternalAPI.cs:35-44 | upserting the same item twice equals upserting it once |
| FakeExternal.UpsertKeys | TodoApi.SyncServices/ExternalAPI/FakeExternalAPI.cs:35-44 | one upsert keeps every stored key in place and adds the item's key |
| FakeExternal.UpsertAllKeepsAndAddsKeys | TodoApi.SyncServices/ExternalAPI/FakeExternalAPI.cs:33-45 | storage never shrinks, grows by at most the batch size, keeps keys in place, and ends with the old keys plus the batch's |
| FakeExternal.UpsertAllKeepsKeysUnique | TodoApi.SyncServices/ExternalAPI/FakeExternalAPI.cs:33-45 | unique ExternalIds stay unique through a sync request |
| FakeExternal.UpsertKeepsOtherKeys | TodoApi.SyncServices/ExternalAPI/FakeExternalAPI.cs:35-44 | an upsert leaves the first position of every other ExternalId unchanged |
| FakeExternal.UpsertAllLastWriteWins | TodoApi.SyncServices/ExternalAPI/FakeExternalAPI.cs:33-45 | the first stored entry with a given ExternalId holds the batch's last item with that ExternalId, as sent |
| FakeExternal.FakeExternalAPI.constructor | TodoApi.SyncServices/ExternalAPI/FakeExternalAPI.cs:14-21 | storage starts as exactly the two seeded entries "abc123" and "def456" |
| FakeExternal.FakeExternalAPI.GetAll | TodoApi.SyncServices/ExternalAPI/FakeExternalAPI.cs:23-27 | returns the storage's contents in order and changes nothing |
| FakeExternal.FakeExternalAPI.Sync | TodoApi.SyncServices/ExternalAPI/FakeExternalAPI.cs:29-48 | the loop computes the upsert fold over the batch; length and key bounds as above |

## Left out

- Async execution, `ILogger` calls and the log records are not modelled. Steps run in
  sequence, and a caught exception leaves only its `Attempt` with `ok == false`.
- Exceptions are modelled as a per-request failure flag. A push makes two calls: the
  remote write, then the local write-back. The model records the pair as one attempt,
  so it does not say which of the two threw.
- AutoMapper is replaced by explicit field copies, one for each mapping the engine
  uses. Of the maps the engine uses, the mapping profile
  (`TodoApi.Services/MappingProfile.cs:10-36`) configures only the one from the remote
  item to `UpdateTodoItemDto`; its other maps serve the local services. The code's mapper therefore differs from the copies as
  follows. In each case the model follows the linking the tests' mocks assume: the local
  list returned for a create carries the remote id as its ExternalId
  (`TodoApi.Tests/Sync/SyncServiceTests.cs:91-93`).
- `SyncSpec.ItemDtoFromExternal` copies the title it is given: "" on an inbound create.
  The profile ignores Title, so the code sends a null title. The store rejects that
  (`TodoApi.Tests/Services/TodoItemsServiceTests.cs:143-151` expects a
  DbUpdateException), so every inbound item create would throw. In the model it can
  complete.
- `SyncSpec.ItemDtoFromExternal` and `SyncSpec.ListDtoFromExternal` set ExternalId to the
  remote id. The remote records have `Id` and no `ExternalId`
  (`TodoApi.ExternalContracts/Contracts/ExternalTodoList.cs:11-29`), so a by-name map
  leaves ExternalId null, and a created list or item would not be linked on the next
  run. For lists the profile has no map at all, so the code's create would throw.
- `SyncSpec.ListDtoFromLocal` (the rename pulled into the local store) copies name and
  ExternalId. The profile has no map from the list DTO to the update DTO, so the code's
  rename would throw after the working copy was renamed, and that list's items would be
  skipped.
- `SyncSpec.ExternalListFromLocal` sets the remote SourceId to the local id in decimal.
  The list DTO has no SourceId, and the profile has no map to `CreateExternalTodoList`,
  so the code's push would throw.
- `SyncSpec.ExternalItemFromLocal` copies description and completion into the remote item
  payload. The profile has no map from the item DTO to `UpdateExternalTodoItem`, so the
  code's item push and item update would throw.
- The remote list update payload (`UpdateExternalTodoList`) is not part of this model.
  `SyncSpec.SyncLocalListToExternal` issues the update with the local name. The profile
  has no map to that payload, so the code's remote rename would throw.
- A null `TodoItems` on a remote list is not modelled: remote items are a sequence. In the
  code, an inbound list whose items are null throws at the items loop
  (`SyncService.cs:148`). That happens after the list create or rename was counted, and
  the per-list catch (`SyncService.cs:81`) swallows it. Outbound, each local item of such
  a list throws at the lookup (`SyncService.cs:246`), and each throw is caught per item.
- `TodoItemServices.TodoItemService.CreateTodoItem` rejects an item whose list row does
  not exist. This follows the SQL Server configuration (`TodoApi/Program.cs:9`), which
  enforces the item-to-list foreign key. The repository's in-memory tests
  (`TodoApi.Tests/Services/TodoItemsServiceTests.cs:130-140` and `:154-164`) expect such
  a create to succeed, because the in-memory provider does not enforce it.
- `TodoListServices.TodoListService.CreateTodoList` and
  `TodoItemServices.TodoItemService.CreateTodoItem` stamp both timestamps from one clock
  reading. The code reads `DateTime.Now` twice, so CreatedAt can be a tick later than
  UpdatedAt. The clock itself is a counter that every write advances.
- `TodoListDto.Items` being null is not modelled. Items are a sequence, so the outbound
  items loop's missing null guard (`SyncService.cs:242`) cannot show.
- Null remote ids are not modelled. Remote list and item ids are strings.
- The remote list and item records carry no timestamps, because the engine never reads
  them.
- `ListName` of the item DTO is not modelled.
- Counter overflow is not modelled. The counters are unbounded naturals, not 32-bit
  integers.
- The SQL database is not modelled beyond its identity counters and the item-to-list
  foreign key. Transactions, concurrency and query translation are out.
- `FakeExternal.FakeExternalAPI.Sync` works on values. The C# storage holds references,
  so an appended item is the caller's object and a later update also changes the
  caller's copy. `GetAll` returns a new list that shares those objects. Neither aliasing
  effect is modelled.
- The real remote client, the controllers, the DI wiring and the migrations are not
  part of this model.

=== FILE: entities.dfy ===
/**
 * The records the reconciliation pass and the local store exchange: the rows of the
 * local TodoList and TodoItem tables, the list DTO the local store hands out, the
 * payloads of local and remote writes, and the remote side's own list and item records.
 * Timestamps are values of an abstract clock (see TodoData.TodoContext.clock).
 */
module Entities {
  import opened Options

  /** A row of the local TodoList table (its Items are read through TodoListDto). */
  datatype TodoList = TodoList(
    id: int, name: string, createdAt: int, updatedAt: int, deleted: bool,
    externalId: Option<string>)

  /** A row of the local TodoItem table; it also serves as the item DTO the engine reads. */
  datatype TodoItem = TodoItem(
    listId: int, id: int, title: string, description: string, completed: bool,
    createdAt: int, updatedAt: int, deleted: bool, externalId: Option<string>)

  /** A local list together with the items the query that produced it included. */
  datatype TodoListDto = TodoListDto(
    id: int, name: string, items: seq<TodoItem>, createdAt: int, updatedAt: int,
    deleted: bool, externalId: Option<string>)

  /** Payload of a local list create or update. */
  datatype UpdateTodoListDto = UpdateTodoListDto(name: string, externalId: Option<string>)

  /** Payload of a local item create or update. */
  datatype UpdateTodoItemDto = UpdateTodoItemDto(
    title: string, description: string, completed: bool, listId: int,
    externalId: Option<string>)

  /** A remote item: `id` is the remote's own key, `sourceId` the local id it mirrors, if any. */
  datatype ExternalTodoItem = ExternalTodoItem(
    id: string, sourceId: Option<string>, description: string, completed: bool)

  /** A remote list with its embedded items. */
  datatype ExternalTodoList = ExternalTodoList(
    id: string, sourceId: Option<string>, name: string, items: seq<ExternalTodoItem>)

  /** Payload of a remote list create: the back-reference to the local id, and the name. */
  datatype CreateExternalTodoList = CreateExternalTodoList(sourceId: string, name: string)

  /** Payload of a remote item write. */
  datatype UpdateExternalTodoItem = UpdateExternalTodoItem(description: string, completed: bool)

  /** C#'s `string.IsNullOrEmpty` on a nullable string. */
  predicate IsNullOrEmpty(s: Option<string>) {
    s == None || s == Some("")
  }

  /** The character of one decimal digit. */
  function DigitChar(d: nat): (c: char)
    requires d < 10
    ensures '0' <= c <= '9'
  {
    ('0' as int + d) as char
  }

  /** Decimal digits of a natural number, most significant first. */
  function Digits(n: nat): (r: string)
    ensures |r| > 0 && r[0] != '-'
    ensures |r| == 1 <==> n < 10
    decreases n
  {
    if n < 10 then [DigitChar(n)] else Digits(n / 10) + [DigitChar(n % 10)]
  }

  /** `long.ToString()`: the decimal form of an id, with a leading '-' when negative. */
  function IdString(id: int): string {
    if id < 0 then "-" + Digits(-id) else Digits(id)
  }

  /** Distinct naturals have distinct decimal forms. */
  lemma {:induction false} DigitsInjective(a: nat, b: nat)
    requires Digits(a) == Digits(b)
    ensures a == b
    decreases a
  {
    var da, db := Digits(a), Digits(b);
    if a < 10 {
      assert da[0] == db[0];
    } else {
      assert b >= 10;
      assert da[..|da| - 1] == Digits(a / 10) && db[..|db| - 1] == Digits(b / 10);
      assert da[|da| - 1] == DigitChar(a % 10) && db[|db| - 1] == DigitChar(b % 10);
      DigitsInjective(a / 10, b / 10);
    }
  }

  /**
   * Two ids have the same decimal form exactly when they are equal, so a remote
   * `sourceId` names at most one local id.
   */
  lemma IdStringInjective(a: int, b: int)
    ensures IdString(a) == IdString(b) <==> a == b
  {
    if IdString(a) == IdString(b) {
      var sa, sb := IdString(a), IdString(b);
      if a < 0 && b < 0 {
        assert sa[1..] == Digits(-a) && sb[1..] == Digits(-b);
        DigitsInjective(-a, -b);
      } else if a < 0 || b < 0 {
        // only one of the forms starts with '-'
      } else {
        DigitsInjective(a, b);
      }
    }
  }
}

=== FILE: fake_external_api.dfy ===
/**
 * FakeExternalAPI: an in-memory stand-in for the remote item endpoint. It keeps a list
 * of remote items; a sync request upserts a batch into it by ExternalId.
 */
module FakeExternal {
  import opened Options
  import opened Queries

  /** A remote item of this endpoint (external_id, name, is_complete). */
  datatype ExternalTodoItem = ExternalTodoItem(externalId: string, name: string, isComplete: bool)

  /** The ExternalIds present in a storage. */
  function Keys(s: seq<ExternalTodoItem>): set<string> {
    set x | x in s :: x.externalId
  }

  ghost predicate KeysUnique(s: seq<ExternalTodoItem>) {
    forall i, j :: 0 <= i < j < |s| ==> s[i].externalId != s[j].externalId
  }

  function KeyIndex(s: seq<ExternalTodoItem>, key: string): Option<nat> {
    FirstIndex(s, (x: ExternalTodoItem) => x.externalId == key)
  }

  /**
   * One item of a sync request: the first stored entry with the same ExternalId takes the
   * item's Name and IsComplete; without one, the item is appended. Nothing else changes.
   */
  function Upsert(s: seq<ExternalTodoItem>, item: ExternalTodoItem): (r: seq<ExternalTodoItem>)
    ensures KeyIndex(s, item.externalId).None? ==> r == s + [item]
    ensures KeyIndex(s, item.externalId).Some? ==>
      var k := KeyIndex(s, item.externalId).value;
      && |r| == |s| && r[k] == item
      && forall i :: 0 <= i < |s| && i != k ==> r[i] == s[i]
  {
    match KeyIndex(s, item.externalId)
    case None => s + [item]
    case Some(k) => s[k := s[k].(name := item.name, isComplete := item.isComplete)]
  }

  /** A whole sync request, item by item in order. */
  function UpsertAll(s: seq<ExternalTodoItem>, items: seq<ExternalTodoItem>): seq<ExternalTodoItem>
    decreases |items|
  {
    if items == [] then s else Upsert(UpsertAll(s, items[..|items| - 1]), items[|items| - 1])
  }

  /** Upserting the same item twice is the same as upserting it once. */
  lemma UpsertIsIdempotent(s: seq<ExternalTodoItem>, item: ExternalTodoItem)
    ensures Upsert(Upsert(s, item), item) == Upsert(s, item)
  {
    var s1 := Upsert(s, item);
    match KeyIndex(s, item.externalId)
    case None =>
      assert s1[|s|] == item;
      assert KeyIndex(s1, item.externalId).Some?;
    case Some(k) =>
      assert s1[k] == item;
      assert KeyIndex(s1, item.externalId) == Some(k);
  }

  /** One upsert adds the item's ExternalId to the stored ones and keeps every stored key in place. */
  lemma UpsertKeys(s: seq<ExternalTodoItem>, item: ExternalTodoItem)
    ensures var r := Upsert(s, item);
      && |s| <= |r| <= |s| + 1
      && (forall i :: 0 <= i < |s| ==> r[i].externalId == s[i].externalId)
      && Keys(r) == Keys(s) + {item.externalId}
  {
    var r := Upsert(s, item);
    match KeyIndex(s, item.externalId)
    case None =>
      assert r == s + [item];
    case Some(k) =>
      forall key | key in Keys(s) ensures key in Keys(r) {
        var i :| 0 <= i < |s| && s[i].externalId == key;
        assert r[i].externalId == key;
      }
      forall key | key in Keys(r) ensures key in Keys(s) {
        var i :| 0 <= i < |r| && r[i].externalId == key;
        if i != k { assert s[i] == r[i]; }
      }
  }

  /**
   * A sync request never removes or re-keys a stored entry, adds at most one entry per
   * item, and afterwards the stored ExternalIds are the old ones plus those of the batch.
   */
  lemma {:induction false} UpsertAllKeepsAndAddsKeys(s: seq<ExternalTodoItem>, items: seq<ExternalTodoItem>)
    ensures var r := UpsertAll(s, items);
      && |s| <= |r| <= |s| + |items|
      && (forall i :: 0 <= i < |s| ==> r[i].externalId == s[i].externalId)
      && Keys(r) == Keys(s) + Keys(items)
    decreases |items|
  {
    if items != [] {
      var init, last := items[..|items| - 1], items[|items| - 1];
      UpsertAllKeepsAndAddsKeys(s, init);
      var mid := UpsertAll(s, init);
      assert items == init + [last];
      assert Keys(items) == Keys(init) + {last.externalId};
      UpsertKeys(mid, last);
      assert UpsertAll(s, items) == Upsert(mid, last);
    }
  }

  /** Storage whose ExternalIds are unique keeps them unique through a sync request. */
  lemma {:induction false} UpsertAllKeepsKeysUnique(s: seq<ExternalTodoItem>, items: seq<ExternalTodoItem>)
    requires KeysUnique(s)
    ensures KeysUnique(UpsertAll(s, items))
    decreases |items|
  {
    if items != [] {
      var init, last := items[..|items| - 1], items[|items| - 1];
      UpsertAllKeepsKeysUnique(s, init);
      var mid := UpsertAll(s, init);
      var r := Upsert(mid, last);
      match KeyIndex(mid, last.externalId)
      case None =>
        forall i, j | 0 <= i < j < |r| ensures r[i].externalId != r[j].externalId {
          if j == |mid| { assert r[i] == mid[i]; }
        }
      case Some(k) =>
    }
  }

  /** Upserting an item leaves the position of every other ExternalId where it was. */
  lemma UpsertKeepsOtherKeys(s: seq<ExternalTodoItem>, item: ExternalTodoItem, key: string)
    requires key != item.externalId
    ensures KeyIndex(Upsert(s, item), key) == KeyIndex(s, key)
  {
    var r := Upsert(s, item);
    assert forall i :: 0 <= i < |s| ==> (r[i].externalId == key <==> s[i].externalId == key);
    if |r| > |s| {
      assert r[|s|].externalId != key;
    }
  }

  /**
   * Last write wins: after a sync request, the first stored entry with the ExternalId of
   * the batch's last item with that ExternalId holds that item as sent (an earlier entry
   * with that ExternalId took its Name and IsComplete, or it was appended).
   */
  lemma {:induction false} UpsertAllLastWriteWins(s: seq<ExternalTodoItem>, items: seq<ExternalTodoItem>, n: nat)
    requires n < |items|
    requires forall m :: n < m < |items| ==> items[m].externalId != items[n].externalId
    ensures var r := UpsertAll(s, items);
      && KeyIndex(r, items[n].externalId).Some?
      && r[KeyIndex(r, items[n].externalId).value] == items[n]
    ensures var r := UpsertAll(s, items);
      exists i :: 0 <= i < |r| && r[i] == items[n]
    decreases |items|
  {
    var init, last := items[..|items| - 1], items[|items| - 1];
    var mid := UpsertAll(s, init);
    var r := Upsert(mid, last);
    var key := items[n].externalId;
    assert UpsertAll(s, items) == r;
    if n == |items| - 1 {
      match KeyIndex(mid, key)
      case None =>
        assert r[|mid|] == last;
        assert forall j :: 0 <= j < |mid| ==> r[j] == mid[j];
        assert KeyIndex(r, key) == Some(|mid|);
      case Some(k) =>
        assert r[k] == last;
        assert KeyIndex(r, key) == Some(k);
    } else {
      assert init[n] == items[n];
      UpsertAllLastWriteWins(s, init, n);
      var i := KeyIndex(mid, key).value;
      assert mid[i] == items[n];
      assert last.externalId != key;
      UpsertKeepsOtherKeys(mid, last, key);
      match KeyIndex(mid, last.externalId)
      case None => assert r[i] == items[n];
      case Some(k) =>
        assert k != i;
        assert r[i] == items[n];
    }
  }

  class FakeExternalAPI {
    var fakeStorage: seq<ExternalTodoItem>

    /** Seeded with two remote items. */
    constructor ()
      ensures fakeStorage == [ExternalTodoItem("abc123", "External Task A", false),
                              ExternalTodoItem("def456", "External Task B", true)]
      ensures KeysUnique(fakeStorage)
    {
      fakeStorage := [ExternalTodoItem("abc123", "External Task A", false),
                      ExternalTodoItem("def456", "External Task B", true)];
    }

    /** A copy of the stored items, in storage order; the storage is left as it is. */
    method GetAll() returns (r: seq<ExternalTodoItem>)
      ensures r == fakeStorage
    {
      r := fakeStorage;
    }

    /** Upserts the batch, in order, into the storage. */
    method Sync(items: seq<ExternalTodoItem>)
      modifies this
      ensures fakeStorage == UpsertAll(old(fakeStorage), items)
      ensures |old(fakeStorage)| <= |fakeStorage| <= |old(fakeStorage)| + |items|
      ensures Keys(fakeStorage) == Keys(old(fakeStorage)) + Keys(items)
      ensures KeysUnique(old(fakeStorage)) ==> KeysUnique(fakeStorage)
    {
      ghost var s0 := fakeStorage;
      var i := 0;
      while i < |items|
        invariant 0 <= i <= |items|
        invariant fakeStorage == UpsertAll(s0, items[..i])
      {
        assert items[..i + 1][..i] == items[..i];
        fakeStorage := Upsert(fakeStorage, items[i]);
        i := i + 1;
      }
      assert items[..i] == items;
      UpsertAllKeepsAndAddsKeys(s0, items);
      if KeysUnique(s0) {
        UpsertAllKeepsKeysUnique(s0, items);
      }
    }
  }
}

=== FILE: matching.dfy ===
/**
 * Entity matcher and change detector of the reconciliation pass.
 *
 * A local entity and a remote one are linked when the local id, in decimal, equals the
 * remote `sourceId`, or when the local `externalId` equals the remote `id`. The finders
 * are `FirstOrDefault` over that predicate: they pick the first linked entity in
 * iteration order, and report absence rather than failing.
 */
module Matching {
  import opened Options
  import opened Queries
  import opened Entities

  predicate ListLinked(local: TodoListDto, external: ExternalTodoList) {
    Some(IdString(local.id)) == external.sourceId || local.externalId == Some(external.id)
  }

  predicate ItemLinked(local: TodoItem, external: ExternalTodoItem) {
    Some(IdString(local.id)) == external.sourceId || local.externalId == Some(external.id)
  }

  /** The local list a remote list resolves to, as an index into the working snapshot. */
  function FindLocalList(localLists: seq<TodoListDto>, external: ExternalTodoList): (r: Option<nat>)
    ensures r.Some? ==> r.value < |localLists| && ListLinked(localLists[r.value], external)
    ensures r.Some? ==> forall j :: 0 <= j < r.value ==> !ListLinked(localLists[j], external)
    ensures r.None? <==> forall j :: 0 <= j < |localLists| ==> !ListLinked(localLists[j], external)
  {
    FirstIndex(localLists, l => ListLinked(l, external))
  }

  /** The local item of a list a remote item resolves to. */
  function FindLocalItem(localItems: seq<TodoItem>, external: ExternalTodoItem): (r: Option<nat>)
    ensures r.Some? ==> r.value < |localItems| && ItemLinked(localItems[r.value], external)
    ensures r.Some? ==> forall j :: 0 <= j < r.value ==> !ItemLinked(localItems[j], external)
    ensures r.None? <==> forall j :: 0 <= j < |localItems| ==> !ItemLinked(localItems[j], external)
  {
    FirstIndex(localItems, i => ItemLinked(i, external))
  }

  /** The remote list a local list resolves to, in the remote snapshot. */
  function FindExternalList(externalLists: seq<ExternalTodoList>, local: TodoListDto): (r: Option<nat>)
    ensures r.Some? ==> r.value < |externalLists| && ListLinked(local, externalLists[r.value])
    ensures r.Some? ==> forall j :: 0 <= j < r.value ==> !ListLinked(local, externalLists[j])
    ensures r.None? <==> forall j :: 0 <= j < |externalLists| ==> !ListLinked(local, externalLists[j])
  {
    FirstIndex(externalLists, e => ListLinked(local, e))
  }

  /** The remote item of a remote list a local item resolves to. */
  function FindExternalItem(externalItems: seq<ExternalTodoItem>, local: TodoItem): (r: Option<nat>)
    ensures r.Some? ==> r.value < |externalItems| && ItemLinked(local, externalItems[r.value])
    ensures r.Some? ==> forall j :: 0 <= j < r.value ==> !ItemLinked(local, externalItems[j])
    ensures r.None? <==> forall j :: 0 <= j < |externalItems| ==> !ItemLinked(local, externalItems[j])
  {
    FirstIndex(externalItems, e => ItemLinked(local, e))
  }

  predicate ListChanged(local: TodoListDto, external: ExternalTodoList) {
    local.name != external.name
  }

  predicate ItemChanged(local: TodoItem, external: ExternalTodoItem) {
    local.description != external.description || local.completed != external.completed
  }

  /**
   * When a local list and a remote list are linked and neither side holds an earlier
   * entity linked to the other one, each finder resolves to the other, whichever side
   * starts the lookup.
   */
  lemma MatchingIsSymmetric(
    localLists: seq<TodoListDto>, externalLists: seq<ExternalTodoList>, i: nat, j: nat)
    requires i < |localLists| && j < |externalLists|
    requires ListLinked(localLists[i], externalLists[j])
    requires forall k :: 0 <= k < i ==> !ListLinked(localLists[k], externalLists[j])
    requires forall k :: 0 <= k < j ==> !ListLinked(localLists[i], externalLists[k])
    ensures FindLocalList(localLists, externalLists[j]) == Some(i)
    ensures FindExternalList(externalLists, localLists[i]) == Some(j)
  {
    var l := FindLocalList(localLists, externalLists[j]);
    var e := FindExternalList(externalLists, localLists[i]);
    assert l.Some? && e.Some?;
    assert l.value >= i && e.value >= j;
  }

  /** The same holds for items: the inbound and the outbound item lookups agree. */
  lemma ItemMatchingIsSymmetric(
    localItems: seq<TodoItem>, externalItems: seq<ExternalTodoItem>, i: nat, j: nat)
    requires i < |localItems| && j < |externalItems|
    requires ItemLinked(localItems[i], externalItems[j])
    requires forall k :: 0 <= k < i ==> !ItemLinked(localItems[k], externalItems[j])
    requires forall k :: 0 <= k < j ==> !ItemLinked(localItems[i], externalItems[k])
    ensures FindLocalItem(localItems, externalItems[j]) == Some(i)
    ensures FindExternalItem(externalItems, localItems[i]) == Some(j)
  {
    var l := FindLocalItem(localItems, externalItems[j]);
    var e := FindExternalItem(externalItems, localItems[i]);
    assert l.Some? && e.Some?;
    assert l.value >= i && e.value >= j;
  }

  /**
   * Only description and completion enter the item comparison: two local items that
   * agree on them compare alike (the title, which the remote side does not carry, never
   * matters), and a local item that takes the remote values is no longer changed.
   */
  lemma ItemChangedIgnoresTitle(local: TodoItem, external: ExternalTodoItem)
    ensures forall other: TodoItem ::
              other.description == local.description && other.completed == local.completed
              ==> ItemChanged(other, external) == ItemChanged(local, external)
    ensures !ItemChanged(local.(description := external.description, completed := external.completed), external)
  {
  }

  /**
   * Only the name enters the list comparison (items, ids and the deleted flag never do),
   * and a local list that takes the remote name is no longer changed.
   */
  lemma ListChangedDependsOnName(local: TodoListDto, external: ExternalTodoList)
    ensures forall other: TodoListDto :: other.name == local.name ==> ListChanged(other, external) == ListChanged(local, external)
    ensures !ListChanged(local.(name := external.name), external)
  {
  }
}

=== FILE: options.dfy ===
/** Optional values: the model's stand-in for C# `null` results and nullable fields. */
module Options {
  datatype Option<T> = None | Some(value: T)
}

=== FILE: queries.dfy ===
/**
 * The two LINQ query shapes the source relies on, as pure functions on sequences:
 * `FirstOrDefault(p)` (here: the index of the first element satisfying `p`) and
 * `Where(p)`.
 */
module Queries {
  import opened Options

  /** Index of the first element of `s` satisfying `p`; `None` when no element does. */
  function FirstIndex<T>(s: seq<T>, p: T -> bool): (r: Option<nat>)
    ensures r.Some? ==> r.value < |s| && p(s[r.value])
    ensures r.Some? ==> forall j :: 0 <= j < r.value ==> !p(s[j])
    ensures r.None? <==> forall j :: 0 <= j < |s| ==> !p(s[j])
    decreases |s|
  {
    if s == [] then None
    else if p(s[0]) then Some(0)
    else
      match FirstIndex(s[1..], p)
      case None =>
        assert forall j :: 1 <= j < |s| ==> s[j] == s[1..][j - 1];
        None
      case Some(k) =>
        assert forall j :: 1 <= j <= k + 1 ==> s[j] == s[1..][j - 1];
        Some(k + 1)
  }

  /** The elements of `s` satisfying `p`, and no others. */
  function Where<T(==,!new)>(s: seq<T>, p: T -> bool): (r: seq<T>)
    ensures |r| <= |s|
    ensures forall x :: x in r <==> x in s && p(x)
    decreases |s|
  {
    if s == [] then []
    else
      var rest := Where(s[..|s| - 1], p);
      assert s == s[..|s| - 1] + [s[|s| - 1]];
      if p(s[|s| - 1]) then rest + [s[|s| - 1]] else rest
  }
}

=== FILE: sync_properties.dfy ===
/**
 * What the reconciliation pass guarantees, proved about the folds of SyncSpec.
 */
module SyncProperties {
  import opened Options
  import opened Entities
  import opened Matching
  import opened SyncResults
  import opened SyncSpec

  /** The counters of a run are exactly those its trace earns. */
  predicate Accounted(run: Run) {
    run.result == Tally(run.trace)
  }

  /**
   * `run'` continues `run` with item actions only: the trace is extended, the list
   * counters are untouched, and the counters stay accounted for.
   */
  predicate ItemsOnly(run: Run, run': Run) {
    && run.trace <= run'.trace
    && (forall k :: |run.trace| <= k < |run'.trace| ==> IsItemAction(run'.trace[k].action))
    && (forall c :: IsListCounter(c) ==> Count(run'.result, c) == Count(run.result, c))
    && (Accounted(run) ==> Accounted(run'))
  }

  // ----- counters: one per completed action -----

  lemma BumpCombine(a: SyncResult, b: SyncResult, c: Counter)
    ensures Bump(CombineResults(a, b), c) == CombineResults(a, Bump(b, c))
  {
    CountsDetermineResult(Bump(CombineResults(a, b), c), CombineResults(a, Bump(b, c)));
  }

  /** The tally of two traces run one after the other is the sum of their tallies. */
  lemma {:induction false} TallyConcat(t1: seq<Attempt>, t2: seq<Attempt>)
    ensures Tally(t1 + t2) == CombineResults(Tally(t1), Tally(t2))
    decreases |t2|
  {
    if t2 == [] {
      assert t1 + t2 == t1;
      CountsDetermineResult(Tally(t1), CombineResults(Tally(t1), Zero));
    } else {
      var init := t2[..|t2| - 1];
      var last := t2[|t2| - 1];
      var t := t1 + t2;
      assert t[..|t| - 1] == t1 + init;
      assert t[|t| - 1] == last;
      TallyConcat(t1, init);
      assert Tally(t) == if last.ok then Bump(Tally(t1 + init), CounterOf(last.action)) else Tally(t1 + init);
      assert Tally(t2) == if last.ok then Bump(Tally(init), CounterOf(last.action)) else Tally(init);
      if last.ok {
        BumpCombine(Tally(t1), Tally(init), CounterOf(last.action));
      }
    }
  }

  /**
   * Issuing an action appends exactly one attempt; the counters rise by one, on the
   * action's counter, exactly when the attempt completed.
   */
  lemma PerformFacts(gw: Gateways, base: nat, run: Run, a: Action)
    ensures var r := Perform(gw, base, run, a);
      && r.trace == run.trace + [Attempt(a, Succeeds(gw, base, run))]
      && (Succeeds(gw, base, run) ==> Count(r.result, CounterOf(a)) == Count(run.result, CounterOf(a)) + 1)
      && (forall c :: c != CounterOf(a) || !Succeeds(gw, base, run) ==> Count(r.result, c) == Count(run.result, c))
      && (Accounted(run) ==> Accounted(r))
  {
    var r := Perform(gw, base, run, a);
    assert r.trace[..|r.trace| - 1] == run.trace;
  }

  lemma ItemsOnlyTrans(r1: Run, r2: Run, r3: Run)
    requires ItemsOnly(r1, r2) && ItemsOnly(r2, r3)
    ensures ItemsOnly(r1, r3)
  {
    forall k | |r1.trace| <= k < |r3.trace|
      ensures IsItemAction(r3.trace[k].action)
    {
      if k < |r2.trace| {
        assert r3.trace[k] == r2.trace[k];
      }
    }
  }

  lemma PerformItem(gw: Gateways, base: nat, run: Run, a: Action)
    requires IsItemAction(a)
    ensures ItemsOnly(run, Perform(gw, base, run, a))
  {
    PerformFacts(gw, base, run, a);
  }

  /** The inbound items loop issues item actions only and keeps the counters accounted. */
  lemma {:induction false} InboundItemsFacts(
    gw: Gateways, base: nat, run: Run, list: TodoListDto, es: seq<ExternalTodoItem>)
    ensures ItemsOnly(run, InboundItems(gw, base, run, list, es))
    decreases |es|
  {
    if es != [] {
      var mid := InboundItems(gw, base, run, list, es[..|es| - 1]);
      InboundItemsFacts(gw, base, run, list, es[..|es| - 1]);
      var e := es[|es| - 1];
      match FindLocalItem(list.items, e)
      case None =>
        PerformItem(gw, base, mid, CreateLocalItem(list.id, ItemDtoFromExternal(list.id, e, "")));
        ItemsOnlyTrans(run, mid, SyncExternalItem(gw, base, mid, list, e));
      case Some(k) =>
        var local := list.items[k];
        if ItemChanged(local, e) {
          PerformItem(gw, base, mid, UpdateLocalItem(list.id, local.id, ItemDtoFromExternal(list.id, e, local.title)));
          ItemsOnlyTrans(run, mid, SyncExternalItem(gw, base, mid, list, e));
        }
    }
  }

  /** The outbound items loop issues item actions only and keeps the counters accounted. */
  lemma {:induction false} OutboundItemsFacts(
    gw: Gateways, base: nat, run: Run, list: TodoListDto, extList: ExternalTodoList, items: seq<TodoItem>)
    ensures ItemsOnly(run, OutboundItems(gw, base, run, list, extList, items))
    decreases |items|
  {
    if items != [] {
      var mid := OutboundItems(gw, base, run, list, extList, items[..|items| - 1]);
      OutboundItemsFacts(gw, base, run, list, extList, items[..|items| - 1]);
      var item := items[|items| - 1];
      var next := SyncLocalItem(gw, base, mid, list, extList, item);
      match FindExternalItem(extList.items, item)
      case None =>
        if !IsNullOrEmpty(item.externalId) {
          PerformItem(gw, base, mid, DeleteLocalItem(list.id, item.id));
        } else if !item.deleted {
          var reply := gw.returnedExternalItem(Ordinal(base, mid));
          PerformItem(gw, base, mid, PushItem(list.externalId, IdString(item.id), ExternalItemFromLocal(item),
                                             list.id, item.id, ItemDtoFromExternal(0, reply, item.title)));
        }
        ItemsOnlyTrans(run, mid, next);
      case Some(k) =>
        var e := extList.items[k];
        if item.deleted {
          PerformItem(gw, base, mid, DeleteExternalItem(list.externalId, item.externalId));
        } else if ItemChanged(item, e) {
          PerformItem(gw, base, mid, UpdateExternalItem(list.externalId, e.id, ExternalItemFromLocal(item)));
        }
        ItemsOnlyTrans(run, mid, next);
    }
  }

  /** Handling one remote list keeps the counters accounted and only extends the trace. */
  lemma SyncExternalListAccounted(gw: Gateways, base: nat, w: Working, e: ExternalTodoList)
    ensures var w' := SyncExternalList(gw, base, w, e);
      w.run.trace <= w'.run.trace && (Accounted(w.run) ==> Accounted(w'.run))
  {
    match FindLocalList(w.locals, e)
    case None =>
      var run1 := Perform(gw, base, w.run, CreateLocalList(ListDtoFromExternal(e)));
      PerformFacts(gw, base, w.run, CreateLocalList(ListDtoFromExternal(e)));
      InboundItemsFacts(gw, base, run1, gw.createdList(Ordinal(base, w.run)), e.items);
    case Some(i) =>
      if ListChanged(w.locals[i], e) {
        var renamed := w.locals[i].(name := e.name);
        var run1 := Perform(gw, base, w.run, UpdateLocalList(renamed.id, ListDtoFromLocal(renamed)));
        PerformFacts(gw, base, w.run, UpdateLocalList(renamed.id, ListDtoFromLocal(renamed)));
        InboundItemsFacts(gw, base, run1, renamed, e.items);
      } else {
        InboundItemsFacts(gw, base, w.run, w.locals[i], e.items);
      }
  }

  /** The inbound phase keeps the counters accounted and only extends the trace. */
  lemma {:induction false} InboundAccounted(gw: Gateways, base: nat, w: Working, es: seq<ExternalTodoList>)
    ensures var w' := Inbound(gw, base, w, es);
      w.run.trace <= w'.run.trace && (Accounted(w.run) ==> Accounted(w'.run))
    decreases |es|
  {
    if es != [] {
      InboundAccounted(gw, base, w, es[..|es| - 1]);
      SyncExternalListAccounted(gw, base, Inbound(gw, base, w, es[..|es| - 1]), es[|es| - 1]);
    }
  }

  /** Handling one local list keeps the counters accounted and only extends the trace. */
  lemma SyncLocalListAccounted(gw: Gateways, base: nat, run: Run, list: TodoListDto, es: seq<ExternalTodoList>)
    ensures var r := SyncLocalList(gw, base, run, list, es);
      run.trace <= r.trace && (Accounted(run) ==> Accounted(r))
  {
    match FindExternalList(es, list)
    case None =>
      if !IsNullOrEmpty(list.externalId) {
        PerformFacts(gw, base, run, DeleteLocalList(list.id));
      } else if !list.deleted {
        var reply := gw.createdExternalList(Ordinal(base, run));
        PerformFacts(gw, base, run, PushList(ExternalListFromLocal(list), list.id, ListDtoFromExternal(reply)));
      }
    case Some(j) =>
      var e := es[j];
      if list.deleted {
        PerformFacts(gw, base, run, DeleteExternalList(list.externalId));
      } else if ListChanged(list, e) {
        var run1 := Perform(gw, base, run, UpdateExternalList(e.id, list.name));
        PerformFacts(gw, base, run, UpdateExternalList(e.id, list.name));
        OutboundItemsFacts(gw, base, run1, list, e, list.items);
      } else {
        OutboundItemsFacts(gw, base, run, list, e, list.items);
      }
  }

  /** The outbound phase keeps the counters accounted and only extends the trace. */
  lemma {:induction false} OutboundAccounted(
    gw: Gateways, base: nat, run: Run, lists: seq<TodoListDto>, es: seq<ExternalTodoList>)
    ensures var r := Outbound(gw, base, run, lists, es);
      run.trace <= r.trace && (Accounted(run) ==> Accounted(r))
    decreases |lists|
  {
    if lists != [] {
      OutboundAccounted(gw, base, run, lists[..|lists| - 1], es);
      SyncLocalListAccounted(gw, base, Outbound(gw, base, run, lists[..|lists| - 1], es), lists[|lists| - 1], es);
    }
  }

  /**
   * A sync run reports `None` exactly when a snapshot fetch threw (and then issues
   * nothing); otherwise every counter it reports equals the number of completed actions
   * of that counter's kind in the run: one increment per completed action, none for a
   * no-op or for an action whose gateway call threw.
   */
  lemma SyncCountsCompletedActions(
    gw: Gateways, localFetch: Option<seq<TodoListDto>>, externalFetch: Option<seq<ExternalTodoList>>)
    ensures var o := Sync(gw, localFetch, externalFetch);
      && (o.result.None? <==> localFetch.None? || externalFetch.None?)
      && (o.result.None? ==> o.trace == [])
      && (o.result.Some? ==> o.result.value == Tally(o.trace))
  {
    if localFetch.Some? && externalFetch.Some? {
      var inbound := Inbound(gw, 0, Working(localFetch.value, Run([], Zero)), externalFetch.value);
      InboundAccounted(gw, 0, Working(localFetch.value, Run([], Zero)), externalFetch.value);
      var outbound := Outbound(gw, |inbound.run.trace|, Run([], Zero), inbound.locals, externalFetch.value);
      OutboundAccounted(gw, |inbound.run.trace|, Run([], Zero), inbound.locals, externalFetch.value);
      TallyConcat(inbound.run.trace, outbound.trace);
    }
  }

  // ----- inbound decisions -----

  /**
   * A remote list with no local match issues exactly one local create. When it completes,
   * ListCreations rises by one and the returned list is appended to the working snapshot
   * (so the outbound phase visits it); when it throws, nothing else happens for that list.
   */
  lemma UnmatchedExternalListIsCreated(gw: Gateways, base: nat, w: Working, e: ExternalTodoList)
    requires FindLocalList(w.locals, e).None?
    ensures var w' := SyncExternalList(gw, base, w, e);
      var n := Ordinal(base, w.run);
      var ok := !gw.fails(n);
      && |w'.run.trace| > |w.run.trace|
      && w'.run.trace[|w.run.trace|] == Attempt(CreateLocalList(UpdateTodoListDto(e.name, Some(e.id))), ok)
      && (forall k :: |w.run.trace| < k < |w'.run.trace| ==> IsItemAction(w'.run.trace[k].action))
      && (ok ==> w'.locals == w.locals + [gw.createdList(n)]
                 && Count(w'.run.result, ListCreations) == Count(w.run.result, ListCreations) + 1
                 && Count(w'.run.result, ListUpdates) == Count(w.run.result, ListUpdates)
                 && Count(w'.run.result, ListDeleted) == Count(w.run.result, ListDeleted))
      && (!ok ==> w'.locals == w.locals && w'.run.trace == w.run.trace + [Attempt(CreateLocalList(ListDtoFromExternal(e)), false)]
                  && w'.run.result == w.run.result)
  {
    var a := CreateLocalList(ListDtoFromExternal(e));
    var run1 := Perform(gw, base, w.run, a);
    PerformFacts(gw, base, w.run, a);
    InboundItemsFacts(gw, base, run1, gw.createdList(Ordinal(base, w.run)), e.items);
  }

  /**
   * A matched remote list whose name differs is written into the working copy before the
   * local update is issued, whether or not that update then throws; ListUpdates rises by
   * one exactly when it completes. The working copy then no longer differs from the
   * remote list, so the outbound phase pushes no update for that pair.
   */
  lemma ChangedExternalListIsPulled(gw: Gateways, base: nat, w: Working, e: ExternalTodoList, i: nat)
    requires FindLocalList(w.locals, e) == Some(i)
    requires ListChanged(w.locals[i], e)
    ensures var w' := SyncExternalList(gw, base, w, e);
      var ok := Succeeds(gw, base, w.run);
      && w'.locals == w.locals[i := w.locals[i].(name := e.name)]
      && !ListChanged(w'.locals[i], e)
      && |w'.run.trace| > |w.run.trace|
      && w'.run.trace[|w.run.trace|]
         == Attempt(UpdateLocalList(w.locals[i].id, UpdateTodoListDto(e.name, w.locals[i].externalId)), ok)
      && Count(w'.run.result, ListUpdates) == Count(w.run.result, ListUpdates) + (if ok then 1 else 0)
      && Count(w'.run.result, ListCreations) == Count(w.run.result, ListCreations)
  {
    var renamed := w.locals[i].(name := e.name);
    var a := UpdateLocalList(renamed.id, ListDtoFromLocal(renamed));
    var run1 := Perform(gw, base, w.run, a);
    PerformFacts(gw, base, w.run, a);
    InboundItemsFacts(gw, base, run1, renamed, e.items);
  }

  /**
   * The inbound decision for one remote item, in all three cases: with no linked local
   * item, one local create carrying the remote description and completion
   * (ItemCreations); with a linked local item that differs, one local update of that item
   * carrying its own title and the remote description and completion (ItemUpdates); with
   * a linked local item that agrees, nothing. Each counter rises only if its action
   * completes.
   */
  lemma InboundItemDecision(gw: Gateways, base: nat, run: Run, list: TodoListDto, e: ExternalTodoItem)
    ensures var r := SyncExternalItem(gw, base, run, list, e);
      var ok := Succeeds(gw, base, run);
      var found := FindLocalItem(list.items, e);
      && (found.None? ==>
            r.trace == run.trace + [Attempt(CreateLocalItem(list.id,
                                      UpdateTodoItemDto("", e.description, e.completed, list.id, Some(e.id))), ok)]
            && r.result == (if ok then run.result.(itemCreations := run.result.itemCreations + 1) else run.result))
      && (found.Some? && ItemChanged(list.items[found.value], e) ==>
            r.trace == run.trace + [Attempt(UpdateLocalItem(list.id, list.items[found.value].id,
                                      UpdateTodoItemDto(list.items[found.value].title, e.description, e.completed,
                                                        list.id, Some(e.id))), ok)]
            && r.result == (if ok then run.result.(itemUpdates := run.result.itemUpdates + 1) else run.result))
      && (found.Some? && !ItemChanged(list.items[found.value], e) ==> r == run)
  {
  }

  /**
   * A local list whose name already agrees with its remote counterpart, and that is not
   * deleted, gets no list-level action in the outbound phase: only its items are synced.
   */
  lemma AgreeingListIsNotPushed(gw: Gateways, base: nat, run: Run, list: TodoListDto, e: ExternalTodoList)
    requires !list.deleted && list.name == e.name
    ensures ItemsOnly(run, SyncLocalListToExternal(gw, base, run, list, e))
  {
    OutboundItemsFacts(gw, base, run, list, e, list.items);
  }

  /**
   * The inbound items loop against a list without items, with no gateway failure:
   * exactly one completed local item create per remote item, in order, and
   * ItemCreations rises by the number of remote items.
   */
  lemma {:induction false} ItemsOfNewListAreCreated(
    gw: Gateways, base: nat, run: Run, list: TodoListDto, es: seq<ExternalTodoItem>)
    requires list.items == []
    requires forall k :: Ordinal(base, run) <= k < Ordinal(base, run) + |es| ==> !gw.fails(k)
    ensures var r := InboundItems(gw, base, run, list, es);
      && |r.trace| == |run.trace| + |es|
      && run.trace <= r.trace
      && (forall k :: 0 <= k < |es| ==>
            r.trace[|run.trace| + k] == Attempt(CreateLocalItem(list.id, ItemDtoFromExternal(list.id, es[k], "")), true))
      && r.result == run.result.(itemCreations := run.result.itemCreations + |es|)
    decreases |es|
  {
    if es != [] {
      var init := es[..|es| - 1];
      ItemsOfNewListAreCreated(gw, base, run, list, init);
      var mid := InboundItems(gw, base, run, list, init);
      var a := CreateLocalItem(list.id, ItemDtoFromExternal(list.id, es[|es| - 1], ""));
      assert FindLocalItem(list.items, es[|es| - 1]).None?;
      PerformFacts(gw, base, mid, a);
      var r := InboundItems(gw, base, run, list, es);
      assert r == Perform(gw, base, mid, a);
      forall k | 0 <= k < |es|
        ensures r.trace[|run.trace| + k]
             == Attempt(CreateLocalItem(list.id, ItemDtoFromExternal(list.id, es[k], "")), true)
      {
        if k < |es| - 1 {
          assert es[k] == init[k];
        }
      }
    }
  }

  /**
   * Creation propagation: a remote-only list, with the local store returning the new
   * list without items and no gateway failing, yields one local list create and then one
   * local item create per remote item; ListCreations rises by one and ItemCreations by
   * the number of remote items, and no other counter moves.
   */
  lemma RemoteOnlyListIsCreatedWithItems(gw: Gateways, base: nat, w: Working, e: ExternalTodoList)
    requires FindLocalList(w.locals, e).None?
    requires gw.createdList(Ordinal(base, w.run)).items == []
    requires forall k :: Ordinal(base, w.run) <= k <= Ordinal(base, w.run) + |e.items| ==> !gw.fails(k)
    ensures var w' := SyncExternalList(gw, base, w, e);
      && w'.locals == w.locals + [gw.createdList(Ordinal(base, w.run))]
      && |w'.run.trace| == |w.run.trace| + 1 + |e.items|
      && w'.run.result == w.run.result.(listCreations := w.run.result.listCreations + 1,
                                        itemCreations := w.run.result.itemCreations + |e.items|)
  {
    var created := gw.createdList(Ordinal(base, w.run));
    var a := CreateLocalList(ListDtoFromExternal(e));
    var run1 := Perform(gw, base, w.run, a);
    PerformFacts(gw, base, w.run, a);
    ItemsOfNewListAreCreated(gw, base, run1, created, e.items);
  }

  /**
   * Failure isolation: when creating the local counterpart of the first of two remote
   * lists throws, the second list is still processed, and only its create is counted.
   */
  lemma FailedListDoesNotStopTheLoop(gw: Gateways, e1: ExternalTodoList, e2: ExternalTodoList)
    requires gw.fails(0) && !gw.fails(1)
    requires e2.items == []
    ensures var w := Inbound(gw, 0, Working([], Run([], Zero)), [e1, e2]);
      && w.run.trace == [Attempt(CreateLocalList(ListDtoFromExternal(e1)), false),
                         Attempt(CreateLocalList(ListDtoFromExternal(e2)), true)]
      && w.run.result == Zero.(listCreations := 1)
      && w.locals == [gw.createdList(1)]
  {
    var w0 := Working([], Run([], Zero));
    var es := [e1, e2];
    assert es[..1] == [e1] && es[..1][..0] == [];
    assert Inbound(gw, 0, w0, es[..1][..0]) == w0;
    assert FindLocalList([], e1).None?;
    var w1 := Inbound(gw, 0, w0, es[..1]);
    assert w1 == SyncExternalList(gw, 0, w0, e1);
    assert w1 == Working([], Run([Attempt(CreateLocalList(ListDtoFromExternal(e1)), false)], Zero));
    assert FindLocalList([], e2).None?;
    assert Inbound(gw, 0, w0, es) == SyncExternalList(gw, 0, w1, e2);
  }

  // ----- outbound decisions -----

  /**
   * Outbound handling of a local list with no remote counterpart: with a non-empty
   * ExternalId it is soft-deleted locally (ListDeleted); without one and not deleted it
   * is pushed (ListCreations); without one and deleted nothing is issued. Each counter
   * rises only if its action completes.
   */
  lemma MissingExternalListDecision(gw: Gateways, base: nat, run: Run, list: TodoListDto, es: seq<ExternalTodoList>)
    requires FindExternalList(es, list).None?
    ensures var r := SyncLocalList(gw, base, run, list, es);
      var ok := Succeeds(gw, base, run);
      && (!IsNullOrEmpty(list.externalId) ==>
            r.trace == run.trace + [Attempt(DeleteLocalList(list.id), ok)]
            && r.result == (if ok then run.result.(listDeleted := run.result.listDeleted + 1) else run.result))
      && (IsNullOrEmpty(list.externalId) && !list.deleted ==>
            |r.trace| == |run.trace| + 1 && run.trace <= r.trace
            && r.trace[|run.trace|].action.PushList?
            && r.trace[|run.trace|].action.create == CreateExternalTodoList(IdString(list.id), list.name)
            && r.trace[|run.trace|].ok == ok
            && r.result == (if ok then run.result.(listCreations := run.result.listCreations + 1) else run.result))
      && (IsNullOrEmpty(list.externalId) && list.deleted ==> r == run)
  {
  }

  /**
   * A matched local list marked deleted is deleted remotely (ListDeleted when that
   * completes) and nothing else is issued for it: no name push, no item visited.
   */
  lemma DeletedListIsDeletedRemotely(gw: Gateways, base: nat, run: Run, list: TodoListDto, es: seq<ExternalTodoList>)
    requires FindExternalList(es, list).Some?
    requires list.deleted
    ensures var r := SyncLocalList(gw, base, run, list, es);
      var ok := Succeeds(gw, base, run);
      && r.trace == run.trace + [Attempt(DeleteExternalList(list.externalId), ok)]
      && r.result == (if ok then run.result.(listDeleted := run.result.listDeleted + 1) else run.result)
  {
  }

  /**
   * A live local list whose name differs from its remote counterpart pushes its name to
   * that remote list (ListUpdates when the push completes). Its items are visited, with
   * item actions only, when the push completed, and not at all when it threw.
   */
  lemma ChangedListIsPushed(gw: Gateways, base: nat, run: Run, list: TodoListDto, e: ExternalTodoList)
    requires !list.deleted && ListChanged(list, e)
    ensures var r := SyncLocalListToExternal(gw, base, run, list, e);
      var ok := Succeeds(gw, base, run);
      var pushed := Run(run.trace + [Attempt(UpdateExternalList(e.id, list.name), ok)],
                        if ok then run.result.(listUpdates := run.result.listUpdates + 1) else run.result);
      && (ok ==> r == OutboundItems(gw, base, pushed, list, e, list.items) && ItemsOnly(pushed, r))
      && (!ok ==> r == pushed)
  {
    var ok := Succeeds(gw, base, run);
    var pushed := Perform(gw, base, run, UpdateExternalList(e.id, list.name));
    if ok {
      OutboundItemsFacts(gw, base, pushed, list, e, list.items);
    }
  }

  /**
   * The outbound decision for one local item, in all six cases of its table: delete
   * locally, push, nothing (no counterpart); delete remotely, push changes, nothing
   * (counterpart found). Each counter rises only if its action completes.
   */
  lemma LocalItemDecision(
    gw: Gateways, base: nat, run: Run, list: TodoListDto, extList: ExternalTodoList, item: TodoItem)
    ensures var r := SyncLocalItem(gw, base, run, list, extList, item);
      var ok := Succeeds(gw, base, run);
      var found := FindExternalItem(extList.items, item);
      && (found.None? && !IsNullOrEmpty(item.externalId) ==>
            r.trace == run.trace + [Attempt(DeleteLocalItem(list.id, item.id), ok)]
            && r.result == (if ok then run.result.(itemDeleted := run.result.itemDeleted + 1) else run.result))
      && (found.None? && IsNullOrEmpty(item.externalId) && !item.deleted ==>
            |r.trace| == |run.trace| + 1 && run.trace <= r.trace
            && r.trace[|run.trace|].action.PushItem?
            && r.trace[|run.trace|].action.payload == UpdateExternalTodoItem(item.description, item.completed)
            && r.trace[|run.trace|].ok == ok
            && r.result == (if ok then run.result.(itemCreations := run.result.itemCreations + 1) else run.result))
      && (found.None? && IsNullOrEmpty(item.externalId) && item.deleted ==> r == run)
      && (found.Some? && item.deleted ==>
            r.trace == run.trace + [Attempt(DeleteExternalItem(list.externalId, item.externalId), ok)]
            && r.result == (if ok then run.result.(itemDeleted := run.result.itemDeleted + 1) else run.result))
      && (found.Some? && !item.deleted && ItemChanged(item, extList.items[found.value]) ==>
            r.trace == run.trace + [Attempt(UpdateExternalItem(list.externalId, extList.items[found.value].id,
                                                               UpdateExternalTodoItem(item.description, item.completed)), ok)]
            && r.result == (if ok then run.result.(itemUpdates := run.result.itemUpdates + 1) else run.result))
      && (found.Some? && !item.deleted && !ItemChanged(item, extList.items[found.value]) ==> r == run)
  {
  }

  // ----- whole runs -----

  /**
   * A remote-only list reaching an empty local store: one local list is created, and the
   * outbound phase, which visits it, finds it in agreement with the remote list.
   */
  lemma NewExternalListScenario(gw: Gateways, localId: int, t: int)
    requires !gw.fails(0)
    requires gw.createdList(0) == TodoListDto(localId, "New External List", [], t, t, false, Some("ext-1"))
    ensures var e := ExternalTodoList("ext-1", None, "New External List", []);
      Sync(gw, Some([]), Some([e]))
      == Outcome(Some(Zero.(listCreations := 1)),
                 [Attempt(CreateLocalList(UpdateTodoListDto("New External List", Some("ext-1"))), true)])
  {
    var e := ExternalTodoList("ext-1", None, "New External List", []);
    var created := gw.createdList(0);
    var w0 := Working([], Run([], Zero));
    var es := [e];
    assert es[..0] == [] && Inbound(gw, 0, w0, es[..0]) == w0;
    assert FindLocalList([], e).None?;
    var run1 := Run([Attempt(CreateLocalList(ListDtoFromExternal(e)), true)], Bump(Zero, ListCreations));
    assert InboundItems(gw, 0, run1, created, []) == run1;
    var inbound := Inbound(gw, 0, w0, es);
    assert inbound == SyncExternalList(gw, 0, w0, e) == Working([created], run1);
    var locals := [created];
    assert locals[..0] == [] && Outbound(gw, 1, Run([], Zero), locals[..0], es) == Run([], Zero);
    assert ListLinked(created, e);
    assert FindExternalList(es, created) == Some(0);
    assert SyncLocalList(gw, 1, Run([], Zero), created, es) == Run([], Zero);
    assert Outbound(gw, 1, Run([], Zero), locals, es) == Run([], Zero);
  }

  /**
   * A run over snapshots that hold a linked local list that is already soft-deleted, and
   * whose remote counterpart is gone, deletes and counts that list again. The local
   * delete then finds no active list and changes nothing (TodoData.DeletedListIsNotActive
   * with TodoListServices.TodoListService.DeleteTodoList), so a second run over the
   * store's snapshot reports the same deletion: the pass is not quiet on a re-run.
   */
  lemma DeletedLinkedListIsCountedAgain(gw: Gateways, list: TodoListDto)
    requires list.deleted && !IsNullOrEmpty(list.externalId)
    requires !gw.fails(0)
    ensures Sync(gw, Some([list]), Some([]))
         == Outcome(Some(Zero.(listDeleted := 1)), [Attempt(DeleteLocalList(list.id), true)])
  {
    var w0 := Working([list], Run([], Zero));
    assert Inbound(gw, 0, w0, []) == w0;
    var locals := [list];
    assert locals[..0] == [] && Outbound(gw, 0, Run([], Zero), locals[..0], []) == Run([], Zero);
    assert FindExternalList([], list).None?;
    assert Outbound(gw, 0, Run([], Zero), locals, [])
        == Run([Attempt(DeleteLocalList(list.id), true)], Bump(Zero, ListDeleted));
  }

  /**
   * A remote change to a linked item's description or completion is pulled into the
   * local store, but the working snapshot keeps the old local values, so the outbound
   * phase pushes those old values back to the remote item. The push is issued, and
   * counted, whether or not the local update threw; when both complete, ItemUpdates is 2.
   */
  lemma PulledItemChangeIsPushedBack(gw: Gateways, list: TodoListDto, e: ExternalTodoList)
    requires !gw.fails(1)
    requires list.externalId == Some(e.id) && list.name == e.name && !list.deleted
    requires |list.items| == 1 && |e.items| == 1
    requires ItemLinked(list.items[0], e.items[0]) && !list.items[0].deleted
    requires ItemChanged(list.items[0], e.items[0])
    ensures var item, ext := list.items[0], e.items[0];
      Sync(gw, Some([list]), Some([e]))
      == Outcome(Some(Zero.(itemUpdates := if gw.fails(0) then 1 else 2)),
                 [Attempt(UpdateLocalItem(list.id, item.id, UpdateTodoItemDto(item.title, ext.description, ext.completed, list.id, Some(ext.id))), !gw.fails(0)),
                  Attempt(UpdateExternalItem(Some(e.id), ext.id, UpdateExternalTodoItem(item.description, item.completed)), true)])
  {
    var item, ext := list.items[0], e.items[0];
    var pull := Attempt(UpdateLocalItem(list.id, item.id, ItemDtoFromExternal(list.id, ext, item.title)), !gw.fails(0));
    var run1 := Run([pull], if gw.fails(0) then Zero else Bump(Zero, ItemUpdates));
    PulledItemChangeInbound(gw, list, e);
    var push := Attempt(UpdateExternalItem(Some(e.id), ext.id, ExternalItemFromLocal(item)), true);
    var one := SyncResult(0, 0, 0, 0, 1, 0);
    var run2 := Run([push], one);
    PulledItemChangeOutbound(gw, list, e);
    SyncOfPhases(gw, [list], [e], Working([list], run1), run2);
    assert [pull] + [push] == [pull, push];
    OneItemUpdate();
    TwoItemUpdates();
  }

  /** A run is its inbound phase followed by its outbound phase, reported as their sum. */
  lemma SyncOfPhases(gw: Gateways, locals: seq<TodoListDto>, es: seq<ExternalTodoList>, w: Working, r: Run)
    requires Inbound(gw, 0, Working(locals, Run([], Zero)), es) == w
    requires Outbound(gw, |w.run.trace|, Run([], Zero), w.locals, es) == r
    ensures Sync(gw, Some(locals), Some(es)) == Outcome(Some(CombineResults(w.run.result, r.result)), w.run.trace + r.trace)
  {
  }

  /** The inbound half of PulledItemChangeIsPushedBack: one local item update, snapshot unchanged. */
  lemma PulledItemChangeInbound(gw: Gateways, list: TodoListDto, e: ExternalTodoList)
    requires list.name == e.name
    requires list.externalId == Some(e.id)
    requires |list.items| == 1 && |e.items| == 1
    requires ItemLinked(list.items[0], e.items[0])
    requires ItemChanged(list.items[0], e.items[0])
    ensures var item, ext := list.items[0], e.items[0];
      var pull := Attempt(UpdateLocalItem(list.id, item.id, ItemDtoFromExternal(list.id, ext, item.title)), !gw.fails(0));
      Inbound(gw, 0, Working([list], Run([], Zero)), [e])
      == Working([list], Run([pull], if gw.fails(0) then Zero else Bump(Zero, ItemUpdates)))
  {
    var item, ext := list.items[0], e.items[0];
    var w0 := Working([list], Run([], Zero));
    var es := [e];
    assert es[..0] == [] && Inbound(gw, 0, w0, es[..0]) == w0;
    assert ListLinked(list, e);
    assert FindLocalList([list], e) == Some(0);
    assert e.items == [ext] && e.items[..0] == [];
    assert FindLocalItem(list.items, ext) == Some(0);
    var pull := Attempt(UpdateLocalItem(list.id, item.id, ItemDtoFromExternal(list.id, ext, item.title)), !gw.fails(0));
    var run1 := Run([pull], if gw.fails(0) then Zero else Bump(Zero, ItemUpdates));
    assert InboundItems(gw, 0, Run([], Zero), list, e.items) == run1;
    assert Inbound(gw, 0, w0, es) == SyncExternalList(gw, 0, w0, e);
  }

  /** The outbound half of PulledItemChangeIsPushedBack: the stale local values are pushed. */
  lemma PulledItemChangeOutbound(gw: Gateways, list: TodoListDto, e: ExternalTodoList)
    requires !gw.fails(1)
    requires list.name == e.name && !list.deleted
    requires list.externalId == Some(e.id)
    requires |list.items| == 1 && |e.items| == 1
    requires ItemLinked(list.items[0], e.items[0]) && !list.items[0].deleted
    requires ItemChanged(list.items[0], e.items[0])
    ensures var item, ext := list.items[0], e.items[0];
      var push := Attempt(UpdateExternalItem(Some(e.id), ext.id, ExternalItemFromLocal(item)), true);
      Outbound(gw, 1, Run([], Zero), [list], [e]) == Run([push], SyncResult(0, 0, 0, 0, 1, 0))
  {
    var item, ext := list.items[0], e.items[0];
    var locals, es := [list], [e];
    assert locals[..0] == [] && Outbound(gw, 1, Run([], Zero), locals[..0], es) == Run([], Zero);
    assert ListLinked(list, e);
    assert FindExternalList(es, list) == Some(0);
    assert list.items == [item] && list.items[..0] == [];
    assert FindExternalItem(e.items, item) == Some(0);
    var push := Attempt(UpdateExternalItem(Some(e.id), ext.id, ExternalItemFromLocal(item)), true);
    var run2 := Run([push], SyncResult(0, 0, 0, 0, 1, 0));
    assert OutboundItems(gw, 1, Run([], Zero), list, e, list.items) == run2;
    assert SyncLocalList(gw, 1, Run([], Zero), list, es) == run2;
  }

  // ----- snapshots that are already in agreement -----

  /** The remote item resolves to a local item of the list that agrees with it. */
  predicate ItemSettledInbound(items: seq<TodoItem>, x: ExternalTodoItem) {
    match FindLocalItem(items, x)
    case None => false
    case Some(k) => !ItemChanged(items[k], x)
  }

  /**
   * The remote list resolves to a local list with the same name, and every item of the
   * remote list is settled against that local list.
   */
  predicate ListSettledInbound(locals: seq<TodoListDto>, e: ExternalTodoList) {
    match FindLocalList(locals, e)
    case None => false
    case Some(i) =>
      && !ListChanged(locals[i], e)
      && forall n :: 0 <= n < |e.items| ==> ItemSettledInbound(locals[i].items, e.items[n])
  }

  /** The local item is live and resolves to a remote item that agrees with it. */
  predicate ItemSettledOutbound(xs: seq<ExternalTodoItem>, item: TodoItem) {
    && !item.deleted
    && (match FindExternalItem(xs, item)
        case None => false
        case Some(k) => !ItemChanged(item, xs[k]))
  }

  /**
   * The local list is live and resolves to a remote list with the same name, and every
   * item of the local list is settled against that remote list.
   */
  predicate ListSettledOutbound(es: seq<ExternalTodoList>, list: TodoListDto) {
    && !list.deleted
    && (match FindExternalList(es, list)
        case None => false
        case Some(j) =>
          && !ListChanged(list, es[j])
          && forall n :: 0 <= n < |list.items| ==> ItemSettledOutbound(es[j].items, list.items[n]))
  }

  /**
   * Snapshots in agreement: every remote list and item resolves to an agreeing local one,
   * and every local list and item is live and resolves to an agreeing remote one.
   */
  predicate Settled(locals: seq<TodoListDto>, es: seq<ExternalTodoList>) {
    && (forall n :: 0 <= n < |es| ==> ListSettledInbound(locals, es[n]))
    && (forall n :: 0 <= n < |locals| ==> ListSettledOutbound(es, locals[n]))
  }

  /**
   * A live local list linked by ExternalId to a remote list with the same name, with one
   * live item linked the same way to an agreeing remote item, is a pair in agreement.
   */
  lemma LinkedAgreeingPairIsSettled(list: TodoListDto, e: ExternalTodoList)
    requires list.externalId == Some(e.id) && list.name == e.name && !list.deleted
    requires |list.items| == 1 && |e.items| == 1
    requires list.items[0].externalId == Some(e.items[0].id) && !list.items[0].deleted
    requires !ItemChanged(list.items[0], e.items[0])
    ensures Settled([list], [e])
  {
    var item, x := list.items[0], e.items[0];
    assert ListLinked(list, e) && ItemLinked(item, x);
    assert FindLocalList([list], e) == Some(0);
    assert FindExternalList([e], list) == Some(0);
    assert FindLocalItem(list.items, x) == Some(0);
    assert FindExternalItem(e.items, item) == Some(0);
    assert ItemSettledInbound(list.items, e.items[0]) && ItemSettledOutbound(e.items, list.items[0]);
  }

  /** The inbound items loop over settled remote items issues nothing. */
  lemma {:induction false} SettledInboundItemsDoNothing(
    gw: Gateways, base: nat, run: Run, list: TodoListDto, xs: seq<ExternalTodoItem>)
    requires forall n :: 0 <= n < |xs| ==> ItemSettledInbound(list.items, xs[n])
    ensures InboundItems(gw, base, run, list, xs) == run
    decreases |xs|
  {
    if xs != [] {
      var init := xs[..|xs| - 1];
      assert forall n :: 0 <= n < |init| ==> init[n] == xs[n];
      SettledInboundItemsDoNothing(gw, base, run, list, init);
      assert ItemSettledInbound(list.items, xs[|xs| - 1]);
    }
  }

  /** The inbound phase over settled remote lists issues nothing and leaves the snapshot as it is. */
  lemma {:induction false} SettledInboundDoesNothing(gw: Gateways, base: nat, w: Working, es: seq<ExternalTodoList>)
    requires forall n :: 0 <= n < |es| ==> ListSettledInbound(w.locals, es[n])
    ensures Inbound(gw, base, w, es) == w
    decreases |es|
  {
    if es != [] {
      var init, e := es[..|es| - 1], es[|es| - 1];
      assert forall n :: 0 <= n < |init| ==> init[n] == es[n];
      SettledInboundDoesNothing(gw, base, w, init);
      assert ListSettledInbound(w.locals, e);
      var i := FindLocalList(w.locals, e).value;
      SettledInboundItemsDoNothing(gw, base, w.run, w.locals[i], e.items);
    }
  }

  /** The outbound items loop over settled local items issues nothing. */
  lemma {:induction false} SettledOutboundItemsDoNothing(
    gw: Gateways, base: nat, run: Run, list: TodoListDto, extList: ExternalTodoList, items: seq<TodoItem>)
    requires forall n :: 0 <= n < |items| ==> ItemSettledOutbound(extList.items, items[n])
    ensures OutboundItems(gw, base, run, list, extList, items) == run
    decreases |items|
  {
    if items != [] {
      var init := items[..|items| - 1];
      assert forall n :: 0 <= n < |init| ==> init[n] == items[n];
      SettledOutboundItemsDoNothing(gw, base, run, list, extList, init);
      assert ItemSettledOutbound(extList.items, items[|items| - 1]);
    }
  }

  /** The outbound phase over settled local lists issues nothing. */
  lemma {:induction false} SettledOutboundDoesNothing(
    gw: Gateways, base: nat, run: Run, lists: seq<TodoListDto>, es: seq<ExternalTodoList>)
    requires forall n :: 0 <= n < |lists| ==> ListSettledOutbound(es, lists[n])
    ensures Outbound(gw, base, run, lists, es) == run
    decreases |lists|
  {
    if lists != [] {
      var init, list := lists[..|lists| - 1], lists[|lists| - 1];
      assert forall n :: 0 <= n < |init| ==> init[n] == lists[n];
      SettledOutboundDoesNothing(gw, base, run, init, es);
      assert ListSettledOutbound(es, list);
      var j := FindExternalList(es, list).value;
      SettledOutboundItemsDoNothing(gw, base, run, list, es[j], list.items);
    }
  }

  /** Over snapshots in agreement, both phases leave their starting state as it is. */
  lemma SettledPhasesDoNothing(gw: Gateways, locals: seq<TodoListDto>, es: seq<ExternalTodoList>)
    requires Settled(locals, es)
    ensures Inbound(gw, 0, Working(locals, Run([], Zero)), es) == Working(locals, Run([], Zero))
    ensures Outbound(gw, 0, Run([], Zero), locals, es) == Run([], Zero)
  {
    SettledInboundDoesNothing(gw, 0, Working(locals, Run([], Zero)), es);
    SettledOutboundDoesNothing(gw, 0, Run([], Zero), locals, es);
  }

  /** Over snapshots in agreement, the run is the sum of two empty phases. */
  lemma SettledSyncIsEmptySum(gw: Gateways, locals: seq<TodoListDto>, es: seq<ExternalTodoList>)
    requires Settled(locals, es)
    ensures Sync(gw, Some(locals), Some(es)) == Outcome(Some(CombineResults(Zero, Zero)), [] + [])
  {
    var w0 := Working(locals, Run([], Zero));
    SettledPhasesDoNothing(gw, locals, es);
    SyncOfPhases(gw, locals, es, w0, Run([], Zero));
  }

  /** The trace half of SettledSnapshotsAreQuiet. */
  lemma SettledSyncIssuesNothing(gw: Gateways, locals: seq<TodoListDto>, es: seq<ExternalTodoList>)
    requires Settled(locals, es)
    ensures Sync(gw, Some(locals), Some(es)).trace == []
  {
    SettledSyncIsEmptySum(gw, locals, es);
  }

  /** The report half of SettledSnapshotsAreQuiet. */
  lemma SettledSyncReportsZero(gw: Gateways, locals: seq<TodoListDto>, es: seq<ExternalTodoList>)
    requires Settled(locals, es)
    ensures Sync(gw, Some(locals), Some(es)).result == Some(Zero)
  {
    SettledSyncIsEmptySum(gw, locals, es);
    ZeroIsNeutral(Zero);
  }

  /**
   * A run over snapshots in agreement issues no action and reports all six counters as
   * zero, whatever the gateways would do: a second run over unchanged, agreeing data
   * reports nothing.
   */
  lemma SettledSnapshotsAreQuiet(gw: Gateways, locals: seq<TodoListDto>, es: seq<ExternalTodoList>)
    requires Settled(locals, es)
    ensures Sync(gw, Some(locals), Some(es)) == Outcome(Some(Zero), [])
  {
    SettledSyncIssuesNothing(gw, locals, es);
    SettledSyncReportsZero(gw, locals, es);
  }
}

=== FILE: sync_result.dfy ===
/** The six counters a sync run reports, and their field-wise sum. */
module SyncResults {
  datatype SyncResult = SyncResult(
    listCreations: nat, listUpdates: nat, listDeleted: nat,
    itemCreations: nat, itemUpdates: nat, itemDeleted: nat)

  /** Names the six counters, so that contracts can quantify over them. */
  datatype Counter =
    | ListCreations | ListUpdates | ListDeleted
    | ItemCreations | ItemUpdates | ItemDeleted

  predicate IsListCounter(c: Counter) {
    c.ListCreations? || c.ListUpdates? || c.ListDeleted?
  }

  const Zero: SyncResult := SyncResult(0, 0, 0, 0, 0, 0)

  function Count(r: SyncResult, c: Counter): nat {
    match c
    case ListCreations => r.listCreations
    case ListUpdates => r.listUpdates
    case ListDeleted => r.listDeleted
    case ItemCreations => r.itemCreations
    case ItemUpdates => r.itemUpdates
    case ItemDeleted => r.itemDeleted
  }

  /** `result.X++`: raises one counter by one and leaves the other five alone. */
  function Bump(r: SyncResult, c: Counter): (r': SyncResult)
    ensures Count(r', c) == Count(r, c) + 1
    ensures forall d :: d != c ==> Count(r', d) == Count(r, d)
  {
    match c
    case ListCreations => r.(listCreations := r.listCreations + 1)
    case ListUpdates => r.(listUpdates := r.listUpdates + 1)
    case ListDeleted => r.(listDeleted := r.listDeleted + 1)
    case ItemCreations => r.(itemCreations := r.itemCreations + 1)
    case ItemUpdates => r.(itemUpdates := r.itemUpdates + 1)
    case ItemDeleted => r.(itemDeleted := r.itemDeleted + 1)
  }

  /** CombineResults: every counter of the combination is the sum of the two counters. */
  function CombineResults(a: SyncResult, b: SyncResult): (r: SyncResult)
    ensures forall c :: Count(r, c) == Count(a, c) + Count(b, c)
  {
    SyncResult(
      a.listCreations + b.listCreations, a.listUpdates + b.listUpdates,
      a.listDeleted + b.listDeleted, a.itemCreations + b.itemCreations,
      a.itemUpdates + b.itemUpdates, a.itemDeleted + b.itemDeleted)
  }

  /** Two results with the same six counters are the same result. */
  lemma CountsDetermineResult(a: SyncResult, b: SyncResult)
    requires forall c :: Count(a, c) == Count(b, c)
    ensures a == b
  {
    assert Count(a, ListCreations) == Count(b, ListCreations);
    assert Count(a, ListUpdates) == Count(b, ListUpdates);
    assert Count(a, ListDeleted) == Count(b, ListDeleted);
    assert Count(a, ItemCreations) == Count(b, ItemCreations);
    assert Count(a, ItemUpdates) == Count(b, ItemUpdates);
    assert Count(a, ItemDeleted) == Count(b, ItemDeleted);
  }

  /** One item update added to nothing: a proof step of `PulledItemChangeIsPushedBack`. */
  lemma OneItemUpdate()
    ensures Bump(Zero, ItemUpdates) == SyncResult(0, 0, 0, 0, 1, 0)
    ensures CombineResults(Zero, SyncResult(0, 0, 0, 0, 1, 0)) == Zero.(itemUpdates := 1)
  {
  }

  /** One item update added to another: a proof step of `PulledItemChangeIsPushedBack`. */
  lemma TwoItemUpdates()
    ensures CombineResults(SyncResult(0, 0, 0, 0, 1, 0), SyncResult(0, 0, 0, 0, 1, 0)) == Zero.(itemUpdates := 2)
  {
  }

  /** The empty result is neutral for CombineResults, on either side. */
  lemma ZeroIsNeutral(a: SyncResult)
    ensures CombineResults(a, Zero) == a && CombineResults(Zero, a) == a
  {
    CountsDetermineResult(CombineResults(a, Zero), a);
    CountsDetermineResult(CombineResults(Zero, a), a);
  }
}

=== FILE: sync_service.dfy ===
/**
 * SyncService's phase loops, as methods. Each loop walks its collection once, issues
 * gateway actions through `Call` and raises a counter right after an action that did
 * not throw; each is proved to compute exactly the corresponding fold of SyncSpec.
 */
module SyncService {
  import opened Options
  import opened Entities
  import opened Matching
  import opened SyncResults
  import opened SyncSpec
  import SyncProperties

  /** One awaited gateway request: it completes unless the gateways make it throw. */
  method Call(gw: Gateways, base: nat, trace: seq<Attempt>, action: Action)
    returns (trace': seq<Attempt>, ok: bool)
    ensures ok == !gw.fails(base + |trace|)
    ensures trace' == trace + [Attempt(action, ok)]
  {
    ok := !gw.fails(base + |trace|);
    trace' := trace + [Attempt(action, ok)];
  }

  /**
   * The body of the inbound items loop for one remote item: create it locally when no
   * local item is linked to it, or pull a changed description and completion into the
   * linked one, keeping the local title.
   */
  method SyncExternalItem(
    gw: Gateways, base: nat, trace0: seq<Attempt>, result0: SyncResult,
    localList: TodoListDto, externalItem: ExternalTodoItem)
    returns (trace: seq<Attempt>, result: SyncResult)
    ensures Run(trace, result) == SyncSpec.SyncExternalItem(gw, base, Run(trace0, result0), localList, externalItem)
  {
    trace, result := trace0, result0;
    var found := FindLocalItem(localList.items, externalItem);
    var ok;
    if found.None? {
      trace, ok := Call(gw, base, trace,
                        CreateLocalItem(localList.id, ItemDtoFromExternal(localList.id, externalItem, "")));
      if ok { result := Bump(result, ItemCreations); }
    } else if ItemChanged(localList.items[found.value], externalItem) {
      var localItem := localList.items[found.value];
      trace, ok := Call(gw, base, trace,
                        UpdateLocalItem(localList.id, localItem.id,
                                        ItemDtoFromExternal(localList.id, externalItem, localItem.title)));
      if ok { result := Bump(result, ItemUpdates); }
    }
  }

  /** The items loop of the inbound phase for one local list. */
  method SyncItemsFromExternalList(
    gw: Gateways, base: nat, trace0: seq<Attempt>, result0: SyncResult,
    localList: TodoListDto, externalItems: seq<ExternalTodoItem>)
    returns (trace: seq<Attempt>, result: SyncResult)
    ensures Run(trace, result) == InboundItems(gw, base, Run(trace0, result0), localList, externalItems)
  {
    trace, result := trace0, result0;
    var i := 0;
    while i < |externalItems|
      invariant 0 <= i <= |externalItems|
      invariant Run(trace, result) == InboundItems(gw, base, Run(trace0, result0), localList, externalItems[..i])
    {
      trace, result := SyncExternalItem(gw, base, trace, result, localList, externalItems[i]);
      assert externalItems[..i + 1][..i] == externalItems[..i];
      i := i + 1;
    }
    assert externalItems[..i] == externalItems;
  }

  /**
   * The body of the inbound loop for one remote list: create the local counterpart and
   * append it to the working snapshot, or write the remote name into the working copy
   * and then store it; then the list's items. A throwing list call skips the items.
   */
  method SyncExternalList(
    gw: Gateways, localLists0: seq<TodoListDto>, trace0: seq<Attempt>, result0: SyncResult,
    externalList: ExternalTodoList)
    returns (localLists: seq<TodoListDto>, trace: seq<Attempt>, result: SyncResult)
    ensures Working(localLists, Run(trace, result))
         == SyncSpec.SyncExternalList(gw, 0, Working(localLists0, Run(trace0, result0)), externalList)
  {
    localLists, trace, result := localLists0, trace0, result0;
    var found := FindLocalList(localLists, externalList);
    var ok;
    if found.None? {
      var n := |trace|;
      trace, ok := Call(gw, 0, trace, CreateLocalList(ListDtoFromExternal(externalList)));
      if !ok { return; }
      result := Bump(result, ListCreations);
      var created := gw.createdList(n);
      localLists := localLists + [created];
      trace, result := SyncItemsFromExternalList(gw, 0, trace, result, created, externalList.items);
    } else if ListChanged(localLists[found.value], externalList) {
      var renamed := localLists[found.value].(name := externalList.name);
      localLists := localLists[found.value := renamed];
      trace, ok := Call(gw, 0, trace, UpdateLocalList(renamed.id, ListDtoFromLocal(renamed)));
      if !ok { return; }
      result := Bump(result, ListUpdates);
      trace, result := SyncItemsFromExternalList(gw, 0, trace, result, renamed, externalList.items);
    } else {
      trace, result := SyncItemsFromExternalList(
        gw, 0, trace, result, localLists[found.value], externalList.items);
    }
  }

  /** The inbound phase: every remote list, in order, against the working local snapshot. */
  method SyncFromExternalToLocal(
    gw: Gateways, localLists0: seq<TodoListDto>, externalLists: seq<ExternalTodoList>)
    returns (localLists: seq<TodoListDto>, trace: seq<Attempt>, result: SyncResult)
    ensures Working(localLists, Run(trace, result))
         == Inbound(gw, 0, Working(localLists0, Run([], Zero)), externalLists)
    ensures result == Tally(trace)
  {
    localLists, trace, result := localLists0, [], Zero;
    var i := 0;
    while i < |externalLists|
      invariant 0 <= i <= |externalLists|
      invariant Working(localLists, Run(trace, result))
             == Inbound(gw, 0, Working(localLists0, Run([], Zero)), externalLists[..i])
    {
      localLists, trace, result := SyncExternalList(gw, localLists, trace, result, externalLists[i]);
      assert externalLists[..i + 1][..i] == externalLists[..i];
      i := i + 1;
    }
    assert externalLists[..i] == externalLists;
    SyncProperties.InboundAccounted(gw, 0, Working(localLists0, Run([], Zero)), externalLists);
  }

  /** A local item with no remote counterpart: soft-delete it locally, or push it. */
  method HandleMissingExternalItem(
    gw: Gateways, base: nat, trace0: seq<Attempt>, result0: SyncResult, list: TodoListDto, item: TodoItem)
    returns (trace: seq<Attempt>, result: SyncResult)
    ensures Run(trace, result) == SyncSpec.HandleMissingExternalItem(gw, base, Run(trace0, result0), list, item)
  {
    trace, result := trace0, result0;
    var ok;
    if !IsNullOrEmpty(item.externalId) {
      trace, ok := Call(gw, base, trace, DeleteLocalItem(list.id, item.id));
      if ok { result := Bump(result, ItemDeleted); }
    } else if !item.deleted {
      var reply := gw.returnedExternalItem(base + |trace|);
      trace, ok := Call(gw, base, trace,
                        PushItem(list.externalId, IdString(item.id), ExternalItemFromLocal(item),
                                 list.id, item.id, ItemDtoFromExternal(0, reply, item.title)));
      if ok { result := Bump(result, ItemCreations); }
    }
  }

  /** A local item with a remote counterpart: delete it remotely, or push its changes. */
  method SyncExistingItemToExternal(
    gw: Gateways, base: nat, trace0: seq<Attempt>, result0: SyncResult,
    list: TodoListDto, localItem: TodoItem, externalItem: ExternalTodoItem)
    returns (trace: seq<Attempt>, result: SyncResult)
    ensures Run(trace, result)
         == SyncSpec.SyncExistingItemToExternal(gw, base, Run(trace0, result0), list, localItem, externalItem)
  {
    trace, result := trace0, result0;
    var ok;
    if localItem.deleted {
      trace, ok := Call(gw, base, trace, DeleteExternalItem(list.externalId, localItem.externalId));
      if ok { result := Bump(result, ItemDeleted); }
    } else if ItemChanged(localItem, externalItem) {
      trace, ok := Call(gw, base, trace,
                        UpdateExternalItem(list.externalId, externalItem.id, ExternalItemFromLocal(localItem)));
      if ok { result := Bump(result, ItemUpdates); }
    }
  }

  /** One local item of the outbound items loop: find its remote counterpart, then act. */
  method SyncLocalItem(
    gw: Gateways, base: nat, trace0: seq<Attempt>, result0: SyncResult,
    localList: TodoListDto, externalList: ExternalTodoList, localItem: TodoItem)
    returns (trace: seq<Attempt>, result: SyncResult)
    ensures Run(trace, result)
         == SyncSpec.SyncLocalItem(gw, base, Run(trace0, result0), localList, externalList, localItem)
  {
    var found := FindExternalItem(externalList.items, localItem);
    if found.None? {
      trace, result := HandleMissingExternalItem(gw, base, trace0, result0, localList, localItem);
    } else {
      trace, result := SyncExistingItemToExternal(
        gw, base, trace0, result0, localList, localItem, externalList.items[found.value]);
    }
  }

  /** The items loop of the outbound phase for one local list and its remote counterpart. */
  method SyncLocalItemsToExternal(
    gw: Gateways, base: nat, trace0: seq<Attempt>, result0: SyncResult,
    localList: TodoListDto, externalList: ExternalTodoList)
    returns (trace: seq<Attempt>, result: SyncResult)
    ensures Run(trace, result)
         == OutboundItems(gw, base, Run(trace0, result0), localList, externalList, localList.items)
  {
    trace, result := trace0, result0;
    var items := localList.items;
    var i := 0;
    while i < |items|
      invariant 0 <= i <= |items|
      invariant Run(trace, result)
             == OutboundItems(gw, base, Run(trace0, result0), localList, externalList, items[..i])
    {
      trace, result := SyncLocalItem(gw, base, trace, result, localList, externalList, items[i]);
      assert items[..i + 1][..i] == items[..i];
      i := i + 1;
    }
    assert items[..i] == items;
  }

  /** A local list with no remote counterpart: soft-delete it locally, or push it. */
  method HandleMissingExternalList(
    gw: Gateways, base: nat, trace0: seq<Attempt>, result0: SyncResult, localList: TodoListDto)
    returns (trace: seq<Attempt>, result: SyncResult)
    ensures Run(trace, result) == SyncSpec.HandleMissingExternalList(gw, base, Run(trace0, result0), localList)
  {
    trace, result := trace0, result0;
    var ok;
    if !IsNullOrEmpty(localList.externalId) {
      trace, ok := Call(gw, base, trace, DeleteLocalList(localList.id));
      if ok { result := Bump(result, ListDeleted); }
    } else if !localList.deleted {
      var reply := gw.createdExternalList(base + |trace|);
      trace, ok := Call(gw, base, trace,
                        PushList(ExternalListFromLocal(localList), localList.id, ListDtoFromExternal(reply)));
      if ok { result := Bump(result, ListCreations); }
    }
  }

  /**
   * A local list with a remote counterpart: delete it remotely and return, or push a
   * changed name, then its items. A throwing name push skips the items.
   */
  method SyncLocalListToExternal(
    gw: Gateways, base: nat, trace0: seq<Attempt>, result0: SyncResult,
    localList: TodoListDto, externalList: ExternalTodoList)
    returns (trace: seq<Attempt>, result: SyncResult)
    ensures Run(trace, result)
         == SyncSpec.SyncLocalListToExternal(gw, base, Run(trace0, result0), localList, externalList)
  {
    trace, result := trace0, result0;
    var ok;
    if localList.deleted {
      trace, ok := Call(gw, base, trace, DeleteExternalList(localList.externalId));
      if ok { result := Bump(result, ListDeleted); }
      return;
    }
    if ListChanged(localList, externalList) {
      trace, ok := Call(gw, base, trace, UpdateExternalList(externalList.id, localList.name));
      if !ok { return; }
      result := Bump(result, ListUpdates);
    }
    trace, result := SyncLocalItemsToExternal(gw, base, trace, result, localList, externalList);
  }

  /** The outbound phase: every list of the working snapshot against the remote snapshot. */
  method SyncFromLocalToExternal(
    gw: Gateways, base: nat, localLists: seq<TodoListDto>, externalLists: seq<ExternalTodoList>)
    returns (trace: seq<Attempt>, result: SyncResult)
    ensures Run(trace, result) == Outbound(gw, base, Run([], Zero), localLists, externalLists)
    ensures result == Tally(trace)
  {
    trace, result := [], Zero;
    var i := 0;
    while i < |localLists|
      invariant 0 <= i <= |localLists|
      invariant Run(trace, result) == Outbound(gw, base, Run([], Zero), localLists[..i], externalLists)
    {
      var localList := localLists[i];
      var found := FindExternalList(externalLists, localList);
      if found.None? {
        trace, result := HandleMissingExternalList(gw, base, trace, result, localList);
      } else {
        trace, result := SyncLocalListToExternal(
          gw, base, trace, result, localList, externalLists[found.value]);
      }
      assert localLists[..i + 1][..i] == localLists[..i];
      i := i + 1;
    }
    assert localLists[..i] == localLists;
    SyncProperties.OutboundAccounted(gw, base, Run([], Zero), localLists, externalLists);
  }

  /**
   * SyncTodoListsAsync: `None` when a snapshot fetch threw; otherwise the field-wise sum
   * of the two phase results, which counts exactly the completed actions of the run.
   */
  method SyncTodoLists(
    gw: Gateways, localFetch: Option<seq<TodoListDto>>, externalFetch: Option<seq<ExternalTodoList>>)
    returns (result: Option<SyncResult>, trace: seq<Attempt>)
    ensures Outcome(result, trace) == Sync(gw, localFetch, externalFetch)
    ensures result.None? <==> localFetch.None? || externalFetch.None?
    ensures result.Some? ==> result.value == Tally(trace)
  {
    if localFetch.None? || externalFetch.None? {
      return None, [];
    }
    var localLists, inboundTrace, externalToLocal := SyncFromExternalToLocal(gw, localFetch.value, externalFetch.value);
    var outboundTrace, localToExternal := SyncFromLocalToExternal(gw, |inboundTrace|, localLists, externalFetch.value);
    result := Some(CombineResults(externalToLocal, localToExternal));
    trace := inboundTrace + outboundTrace;
    SyncProperties.TallyConcat(inboundTrace, outboundTrace);
  }
}

=== FILE: sync_spec.dfy ===
/**
 * The reconciliation pass of SyncService, as functions.
 *
 * The pass talks to two gateways: the local list and item services and the remote API.
 * Every per-entity helper of the service issues one gateway request (two for a push:
 * the remote write and the local write-back of the returned remote id) and then raises
 * one counter. Here each such helper is an `Action`; issuing it appends an `Attempt` to
 * the run's trace, and the counter rises only when the attempt completed. What the
 * gateways do is a parameter, `Gateways`: for the n-th action of a run, whether it
 * throws and what the gateway hands back.
 *
 * The phases are left folds over the remote lists (inbound) and over the working local
 * snapshot (outbound); the SyncService methods run them as loops.
 */
module SyncSpec {
  import opened Options
  import opened Entities
  import opened Matching
  import opened SyncResults

  datatype Action =
    // inbound: remote -> local
    | CreateLocalList(dto: UpdateTodoListDto)
    | UpdateLocalList(listId: int, dto: UpdateTodoListDto)
    | CreateLocalItem(listId: int, item: UpdateTodoItemDto)
    | UpdateLocalItem(listId: int, itemId: int, item: UpdateTodoItemDto)
    // outbound: local -> remote
    | DeleteLocalList(listId: int)
    | PushList(create: CreateExternalTodoList, listId: int, listWriteBack: UpdateTodoListDto)
    | DeleteExternalList(externalListId: Option<string>)
    | UpdateExternalList(remoteListId: string, name: string)
    | DeleteLocalItem(listId: int, itemId: int)
    | PushItem(externalListId: Option<string>, itemKey: string, payload: UpdateExternalTodoItem,
               listId: int, itemId: int, writeBack: UpdateTodoItemDto)
    | DeleteExternalItem(externalListId: Option<string>, externalItemId: Option<string>)
    | UpdateExternalItem(externalListId: Option<string>, remoteItemId: string,
                         payload: UpdateExternalTodoItem)

  /** The counter a completed action raises. */
  function CounterOf(a: Action): Counter {
    match a
    case CreateLocalList(_) => ListCreations
    case PushList(_, _, _) => ListCreations
    case UpdateLocalList(_, _) => ListUpdates
    case UpdateExternalList(_, _) => ListUpdates
    case DeleteLocalList(_) => ListDeleted
    case DeleteExternalList(_) => ListDeleted
    case CreateLocalItem(_, _) => ItemCreations
    case PushItem(_, _, _, _, _, _) => ItemCreations
    case UpdateLocalItem(_, _, _) => ItemUpdates
    case UpdateExternalItem(_, _, _) => ItemUpdates
    case DeleteLocalItem(_, _) => ItemDeleted
    case DeleteExternalItem(_, _) => ItemDeleted
  }

  predicate IsItemAction(a: Action) {
    a.CreateLocalItem? || a.UpdateLocalItem? || a.DeleteLocalItem? || a.PushItem?
    || a.DeleteExternalItem? || a.UpdateExternalItem?
  }

  /** One issued action and whether it completed (false: a gateway call threw). */
  datatype Attempt = Attempt(action: Action, ok: bool)

  /** The counters a trace earns: one per completed attempt, on the attempt's counter. */
  function Tally(trace: seq<Attempt>): SyncResult
    decreases |trace|
  {
    if trace == [] then Zero
    else
      var last := trace[|trace| - 1];
      var before := Tally(trace[..|trace| - 1]);
      if last.ok then Bump(before, CounterOf(last.action)) else before
  }

  /**
   * What the gateways do with the n-th action of a run: whether it throws, the list DTO
   * the local store returns for a list create, the remote list the remote API returns
   * for a list create, and the remote item it returns for an item push.
   */
  datatype Gateways = Gateways(
    fails: nat -> bool,
    createdList: nat -> TodoListDto,
    createdExternalList: nat -> ExternalTodoList,
    returnedExternalItem: nat -> ExternalTodoItem)

  /** The trace of a phase so far, and the phase's own SyncResult. */
  datatype Run = Run(trace: seq<Attempt>, result: SyncResult)

  /** The inbound phase also rewrites the working local snapshot. */
  datatype Working = Working(locals: seq<TodoListDto>, run: Run)

  /** The ordinal, within the whole sync run, of the next action; `base` counts earlier phases. */
  function Ordinal(base: nat, run: Run): nat {
    base + |run.trace|
  }

  predicate Succeeds(gw: Gateways, base: nat, run: Run) {
    !gw.fails(Ordinal(base, run))
  }

  /** Issue an action: record the attempt, and raise its counter only if it completed. */
  function Perform(gw: Gateways, base: nat, run: Run, a: Action): Run {
    var ok := Succeeds(gw, base, run);
    Run(run.trace + [Attempt(a, ok)], if ok then Bump(run.result, CounterOf(a)) else run.result)
  }

  // ----- explicit field copies (the mapper's work) -----

  function ListDtoFromExternal(e: ExternalTodoList): UpdateTodoListDto {
    UpdateTodoListDto(e.name, Some(e.id))
  }

  function ListDtoFromLocal(l: TodoListDto): UpdateTodoListDto {
    UpdateTodoListDto(l.name, l.externalId)
  }

  function ItemDtoFromExternal(listId: int, e: ExternalTodoItem, title: string): UpdateTodoItemDto {
    UpdateTodoItemDto(title, e.description, e.completed, listId, Some(e.id))
  }

  function ExternalListFromLocal(l: TodoListDto): CreateExternalTodoList {
    CreateExternalTodoList(IdString(l.id), l.name)
  }

  function ExternalItemFromLocal(i: TodoItem): UpdateExternalTodoItem {
    UpdateExternalTodoItem(i.description, i.completed)
  }

  // ----- inbound phase: remote -> local -----

  /** One remote item against the items of its (local) list. */
  function SyncExternalItem(gw: Gateways, base: nat, run: Run, list: TodoListDto, e: ExternalTodoItem): Run {
    match FindLocalItem(list.items, e)
    case None =>
      Perform(gw, base, run, CreateLocalItem(list.id, ItemDtoFromExternal(list.id, e, "")))
    case Some(k) =>
      var local := list.items[k];
      if ItemChanged(local, e) then
        Perform(gw, base, run, UpdateLocalItem(list.id, local.id, ItemDtoFromExternal(list.id, e, local.title)))
      else run
  }

  /** The items loop of one inbound list. */
  function InboundItems(gw: Gateways, base: nat, run: Run, list: TodoListDto, es: seq<ExternalTodoItem>): Run
    decreases |es|
  {
    if es == [] then run
    else SyncExternalItem(gw, base, InboundItems(gw, base, run, list, es[..|es| - 1]), list, es[|es| - 1])
  }

  /**
   * One remote list: create its local counterpart (appended to the working snapshot) or
   * pull a changed name into it, then its items. A throwing list call skips the items.
   */
  function SyncExternalList(gw: Gateways, base: nat, w: Working, e: ExternalTodoList): Working {
    match FindLocalList(w.locals, e)
    case None =>
      var ok := Succeeds(gw, base, w.run);
      var created := gw.createdList(Ordinal(base, w.run));
      var run1 := Perform(gw, base, w.run, CreateLocalList(ListDtoFromExternal(e)));
      if ok then Working(w.locals + [created], InboundItems(gw, base, run1, created, e.items))
      else Working(w.locals, run1)
    case Some(i) =>
      if ListChanged(w.locals[i], e) then
        var renamed := w.locals[i].(name := e.name);
        var ok := Succeeds(gw, base, w.run);
        var run1 := Perform(gw, base, w.run, UpdateLocalList(renamed.id, ListDtoFromLocal(renamed)));
        Working(w.locals[i := renamed], if ok then InboundItems(gw, base, run1, renamed, e.items) else run1)
      else Working(w.locals, InboundItems(gw, base, w.run, w.locals[i], e.items))
  }

  /** The inbound phase over a prefix of the remote lists. */
  function Inbound(gw: Gateways, base: nat, w: Working, es: seq<ExternalTodoList>): Working
    decreases |es|
  {
    if es == [] then w
    else SyncExternalList(gw, base, Inbound(gw, base, w, es[..|es| - 1]), es[|es| - 1])
  }

  // ----- outbound phase: local -> remote -----

  /** A local item with no remote counterpart. */
  function HandleMissingExternalItem(gw: Gateways, base: nat, run: Run, list: TodoListDto, item: TodoItem): Run {
    if !IsNullOrEmpty(item.externalId) then
      Perform(gw, base, run, DeleteLocalItem(list.id, item.id))
    else if !item.deleted then
      var reply := gw.returnedExternalItem(Ordinal(base, run));
      Perform(gw, base, run, PushItem(list.externalId, IdString(item.id), ExternalItemFromLocal(item),
                                      list.id, item.id, ItemDtoFromExternal(0, reply, item.title)))
    else run
  }

  /** A local item with a remote counterpart. */
  function SyncExistingItemToExternal(
    gw: Gateways, base: nat, run: Run, list: TodoListDto, item: TodoItem, e: ExternalTodoItem): Run
  {
    if item.deleted then
      Perform(gw, base, run, DeleteExternalItem(list.externalId, item.externalId))
    else if ItemChanged(item, e) then
      Perform(gw, base, run, UpdateExternalItem(list.externalId, e.id, ExternalItemFromLocal(item)))
    else run
  }

  function SyncLocalItem(
    gw: Gateways, base: nat, run: Run, list: TodoListDto, extList: ExternalTodoList, item: TodoItem): Run
  {
    match FindExternalItem(extList.items, item)
    case None => HandleMissingExternalItem(gw, base, run, list, item)
    case Some(k) => SyncExistingItemToExternal(gw, base, run, list, item, extList.items[k])
  }

  /** The items loop of one outbound list. */
  function OutboundItems(
    gw: Gateways, base: nat, run: Run, list: TodoListDto, extList: ExternalTodoList, items: seq<TodoItem>): Run
    decreases |items|
  {
    if items == [] then run
    else SyncLocalItem(gw, base, OutboundItems(gw, base, run, list, extList, items[..|items| - 1]),
                       list, extList, items[|items| - 1])
  }

  /** A local list with no remote counterpart. */
  function HandleMissingExternalList(gw: Gateways, base: nat, run: Run, list: TodoListDto): Run {
    if !IsNullOrEmpty(list.externalId) then
      Perform(gw, base, run, DeleteLocalList(list.id))
    else if !list.deleted then
      var reply := gw.createdExternalList(Ordinal(base, run));
      Perform(gw, base, run, PushList(ExternalListFromLocal(list), list.id, ListDtoFromExternal(reply)))
    else run
  }

  /** A local list with a remote counterpart; a deleted list returns before its items. */
  function SyncLocalListToExternal(gw: Gateways, base: nat, run: Run, list: TodoListDto, e: ExternalTodoList): Run {
    if list.deleted then
      Perform(gw, base, run, DeleteExternalList(list.externalId))
    else if ListChanged(list, e) then
      var ok := Succeeds(gw, base, run);
      var run1 := Perform(gw, base, run, UpdateExternalList(e.id, list.name));
      if ok then OutboundItems(gw, base, run1, list, e, list.items) else run1
    else OutboundItems(gw, base, run, list, e, list.items)
  }

  function SyncLocalList(gw: Gateways, base: nat, run: Run, list: TodoListDto, es: seq<ExternalTodoList>): Run {
    match FindExternalList(es, list)
    case None => HandleMissingExternalList(gw, base, run, list)
    case Some(j) => SyncLocalListToExternal(gw, base, run, list, es[j])
  }

  /** The outbound phase over a prefix of the working local snapshot. */
  function Outbound(
    gw: Gateways, base: nat, run: Run, lists: seq<TodoListDto>, es: seq<ExternalTodoList>): Run
    decreases |lists|
  {
    if lists == [] then run
    else SyncLocalList(gw, base, Outbound(gw, base, run, lists[..|lists| - 1], es), lists[|lists| - 1], es)
  }

  // ----- the whole run -----

  /** What a sync run reports (`None`: it could not run) and the actions it issued. */
  datatype Outcome = Outcome(result: Option<SyncResult>, trace: seq<Attempt>)

  /**
   * A sync run from the two snapshot fetches (`None`: the fetch threw): inbound over the
   * remote lists, then outbound over the updated local snapshot against the original
   * remote snapshot, each phase with a fresh SyncResult; the report is their sum.
   */
  function Sync(gw: Gateways, localFetch: Option<seq<TodoListDto>>,
                externalFetch: Option<seq<ExternalTodoList>>): Outcome
  {
    if localFetch.None? || externalFetch.None? then Outcome(None, [])
    else
      var inbound := Inbound(gw, 0, Working(localFetch.value, Run([], Zero)), externalFetch.value);
      var outbound := Outbound(gw, |inbound.run.trace|, Run([], Zero), inbound.locals, externalFetch.value);
      Outcome(Some(CombineResults(inbound.run.result, outbound.result)), inbound.run.trace + outbound.trace)
  }
}

=== FILE: todo_data.dfy ===
/**
 * The local store the list and item services share: the TodoList and TodoItem tables,
 * the database's identity counters, and the clock the services read for timestamps.
 * Rows are never removed; deletion is the `deleted` flag.
 */
module TodoData {
  import opened Options
  import opened Entities
  import opened Queries

  /** No two rows of the list table share an id. */
  ghost predicate ListIdsUnique(lists: seq<TodoList>) {
    forall i, j :: 0 <= i < j < |lists| ==> lists[i].id != lists[j].id
  }

  /** No two rows of the item table share an id. */
  ghost predicate ItemIdsUnique(items: seq<TodoItem>) {
    forall i, j :: 0 <= i < j < |items| ==> items[i].id != items[j].id
  }

  predicate HasListRow(lists: seq<TodoList>, listId: int) {
    exists i :: 0 <= i < |lists| && lists[i].id == listId
  }

  /** Every row id of `lists` is still the id of the row at the same position in `lists'`. */
  ghost predicate ListIdsKept(lists: seq<TodoList>, lists': seq<TodoList>) {
    |lists| <= |lists'| && forall i :: 0 <= i < |lists| ==> lists'[i].id == lists[i].id
  }

  lemma ListRowsKept(lists: seq<TodoList>, lists': seq<TodoList>, items: seq<TodoItem>)
    requires ListIdsKept(lists, lists')
    requires forall i :: 0 <= i < |items| ==> HasListRow(lists, items[i].listId)
    ensures forall i :: 0 <= i < |items| ==> HasListRow(lists', items[i].listId)
  {
    forall i | 0 <= i < |items|
      ensures HasListRow(lists', items[i].listId)
    {
      var j :| 0 <= j < |lists| && lists[j].id == items[i].listId;
      assert lists'[j].id == items[i].listId;
    }
  }

  /** Index of the row `FirstOrDefault(l => l.Id == listId && !l.Deleted)` returns. */
  function ActiveListIndex(lists: seq<TodoList>, listId: int): Option<nat> {
    FirstIndex(lists, (l: TodoList) => l.id == listId && !l.deleted)
  }

  /** Index of the row `FirstOrDefault(i => i.ListId == listId && i.Id == itemId && !i.Deleted)` returns. */
  function ActiveItemIndex(items: seq<TodoItem>, listId: int, itemId: int): Option<nat> {
    FirstIndex(items, (i: TodoItem) => i.listId == listId && i.id == itemId && !i.deleted)
  }

  /** The items a list query includes for one list: its own, and deleted ones only if asked for. */
  function ItemsOf(items: seq<TodoItem>, listId: int, includeDeleted: bool): (r: seq<TodoItem>)
    ensures forall it :: it in r <==> it in items && it.listId == listId && (!it.deleted || includeDeleted)
  {
    Where(items, (it: TodoItem) => it.listId == listId && (!it.deleted || includeDeleted))
  }

  /** The list DTO of a row, with the given items. */
  function ListDto(l: TodoList, items: seq<TodoItem>): TodoListDto {
    TodoListDto(l.id, l.name, items, l.createdAt, l.updatedAt, l.deleted, l.externalId)
  }

  /** A soft delete of a list row at time `now`. */
  function SoftDeleteList(l: TodoList, now: int): TodoList {
    l.(deleted := true, updatedAt := now)
  }

  /** A soft delete of an item row at time `now`. */
  function SoftDeleteItem(it: TodoItem, now: int): TodoItem {
    it.(deleted := true, updatedAt := now)
  }

  /**
   * After a soft delete of the only row carrying an id, no active row carries it: a second
   * delete, or an update, of that id finds nothing.
   */
  lemma SoftDeletedListIsGone(lists: seq<TodoList>, k: nat, now: int)
    requires ListIdsUnique(lists) && k < |lists|
    ensures ActiveListIndex(lists[k := SoftDeleteList(lists[k], now)], lists[k].id).None?
  {
    var lists' := lists[k := SoftDeleteList(lists[k], now)];
    forall j | 0 <= j < |lists'|
      ensures !(lists'[j].id == lists[k].id && !lists'[j].deleted)
    {
      if j != k {
        assert lists'[j] == lists[j];
        if j < k { assert lists[j].id != lists[k].id; } else { assert lists[k].id != lists[j].id; }
      }
    }
  }

  /**
   * A list id whose only row is already soft-deleted has no active row, so a delete or an
   * update of that id finds nothing and changes nothing.
   */
  lemma DeletedListIsNotActive(lists: seq<TodoList>, k: nat)
    requires ListIdsUnique(lists) && k < |lists| && lists[k].deleted
    ensures ActiveListIndex(lists, lists[k].id).None?
  {
    forall j | 0 <= j < |lists|
      ensures !(lists[j].id == lists[k].id && !lists[j].deleted)
    {
      if j < k { assert lists[j].id != lists[k].id; } else if j > k { assert lists[k].id != lists[j].id; }
    }
  }

  /** The same for items, keyed by list id and item id. */
  lemma SoftDeletedItemIsGone(items: seq<TodoItem>, k: nat, now: int)
    requires ItemIdsUnique(items) && k < |items|
    ensures ActiveItemIndex(items[k := SoftDeleteItem(items[k], now)], items[k].listId, items[k].id).None?
  {
    var items' := items[k := SoftDeleteItem(items[k], now)];
    forall j | 0 <= j < |items'|
      ensures !(items'[j].listId == items[k].listId && items'[j].id == items[k].id && !items'[j].deleted)
    {
      if j != k {
        assert items'[j] == items[j];
        if j < k { assert items[j].id != items[k].id; } else { assert items[k].id != items[j].id; }
      }
    }
  }

  /**
   * The database context: both tables, the next identity value of each, and the clock
   * (`DateTime.Now`, as a counter the services advance on every read).
   */
  class TodoContext {
    var lists: seq<TodoList>
    var items: seq<TodoItem>
    var nextListId: int
    var nextItemId: int
    var clock: int

    /**
     * Ids are unique, positive and below the next identity value; every item's list row
     * exists (the foreign key); no row is stamped after the clock or updated before it
     * was created.
     */
    ghost predicate Valid()
      reads this
    {
      && ListIdsUnique(lists) && ItemIdsUnique(items)
      && 0 < nextListId && 0 < nextItemId
      && (forall i :: 0 <= i < |lists| ==> 0 < lists[i].id < nextListId)
      && (forall i :: 0 <= i < |items| ==> 0 < items[i].id < nextItemId)
      && (forall i :: 0 <= i < |items| ==> HasListRow(lists, items[i].listId))
      && (forall i :: 0 <= i < |lists| ==> lists[i].createdAt <= lists[i].updatedAt <= clock)
      && (forall i :: 0 <= i < |items| ==> items[i].createdAt <= items[i].updatedAt <= clock)
    }

    /** An empty database. */
    constructor ()
      ensures Valid()
      ensures lists == [] && items == [] && nextListId == 1 && nextItemId == 1
    {
      lists := [];
      items := [];
      nextListId := 1;
      nextItemId := 1;
      clock := 0;
    }

    /** `DateTime.Now`: a reading later than every timestamp already stored. */
    method Now() returns (t: int)
      requires Valid()
      modifies this
      ensures Valid()
      ensures t == clock && old(clock) < clock
      ensures lists == old(lists) && items == old(items)
      ensures nextListId == old(nextListId) && nextItemId == old(nextItemId)
    {
      clock := clock + 1;
      t := clock;
    }
  }
}

=== FILE: todo_item_service.dfy ===
/**
 * TodoItemService: queries and soft-delete writes on the item table of a TodoContext.
 * Items are addressed by (list id, item id).
 */
module TodoItemServices {
  import opened Options
  import opened Entities
  import opened Queries
  import opened TodoData

  class TodoItemService {
    const context: TodoContext

    constructor (context: TodoContext)
      ensures this.context == context
    {
      this.context := context;
    }

    /** The active items of a list: exactly the rows with that list id that are not deleted. */
    function GetTodoItems(listId: int): (r: seq<TodoItem>)
      reads context
      ensures forall it :: it in r <==> it in context.items && it.listId == listId && !it.deleted
      ensures |r| <= |context.items|
      ensures (forall i :: 0 <= i < |context.items| ==> context.items[i].listId != listId) ==> r == []
    {
      var r := Where(context.items, (it: TodoItem) => it.listId == listId && !it.deleted);
      assert r != [] ==> r[0] in r;
      r
    }

    /** The active item with this list id and item id; `None` (null) when there is none. */
    function GetTodoItem(listId: int, itemId: int): (r: Option<TodoItem>)
      reads context
      ensures r.None? <==> forall i :: 0 <= i < |context.items| ==>
        !(context.items[i].listId == listId && context.items[i].id == itemId && !context.items[i].deleted)
      ensures r.Some? ==> r.value in context.items
      ensures r.Some? ==> r.value.listId == listId && r.value.id == itemId && !r.value.deleted
    {
      match ActiveItemIndex(context.items, listId, itemId)
      case None => None
      case Some(i) => Some(context.items[i])
    }

    /**
     * Adds one active row under the next identity value, filed under the DTO's list id
     * (the `listId` argument is not used), with the DTO's fields and both timestamps from
     * one clock reading. When no list row has the DTO's list id the database rejects the
     * insert: `None`, and nothing changes.
     */
    method CreateTodoItem(dto: UpdateTodoItemDto, listId: int) returns (r: Option<TodoItem>)
      requires context.Valid()
      modifies context
      ensures context.Valid()
      ensures r.None? <==> !HasListRow(old(context.lists), dto.listId)
      ensures r.None? ==> context.items == old(context.items) && context.nextItemId == old(context.nextItemId)
      ensures r.Some? ==>
        && r.value == TodoItem(dto.listId, old(context.nextItemId), dto.title, dto.description, dto.completed,
                               context.clock, context.clock, false, dto.externalId)
        && context.items == old(context.items) + [r.value]
        && context.nextItemId == old(context.nextItemId) + 1
        && old(context.clock) < context.clock
      ensures r.Some? ==> forall it :: it in old(context.items) ==> it.id != r.value.id
      ensures context.lists == old(context.lists) && context.nextListId == old(context.nextListId)
    {
      if !HasListRow(context.lists, dto.listId) {
        return None;
      }
      var now := context.Now();
      var row := TodoItem(dto.listId, context.nextItemId, dto.title, dto.description, dto.completed,
                          now, now, false, dto.externalId);
      assert forall i :: 0 <= i < |context.items| ==> (context.items + [row])[i] == context.items[i];
      context.items := context.items + [row];
      context.nextItemId := context.nextItemId + 1;
      r := Some(row);
    }

    /**
     * Overwrites Title, Description and Completed of the active item at (listId, itemId)
     * and bumps its UpdatedAt; false, with nothing changed, when there is no such item.
     * The ListId and ExternalId of the DTO are not stored.
     */
    method UpdateTodoItem(dto: UpdateTodoItemDto, listId: int, itemId: int) returns (ok: bool)
      requires context.Valid()
      modifies context
      ensures context.Valid()
      ensures ok <==> ActiveItemIndex(old(context.items), listId, itemId).Some?
      ensures ok ==> var k := ActiveItemIndex(old(context.items), listId, itemId).value;
        context.items == old(context.items)[k := old(context.items)[k].(
          title := dto.title, description := dto.description, completed := dto.completed,
          updatedAt := context.clock)]
      ensures !ok ==> context.items == old(context.items)
      ensures context.lists == old(context.lists)
      ensures context.nextListId == old(context.nextListId) && context.nextItemId == old(context.nextItemId)
    {
      match ActiveItemIndex(context.items, listId, itemId)
      case None =>
        ok := false;
      case Some(k) =>
        var now := context.Now();
        context.items := context.items[k := context.items[k].(
          title := dto.title, description := dto.description, completed := dto.completed, updatedAt := now)];
        ok := true;
    }

    /**
     * Soft-deletes the active item at (listId, itemId); false, with nothing changed, when
     * there is no such item. Afterwards no active item has that key, so a repeated delete
     * returns false.
     */
    method DeleteTodoItem(listId: int, itemId: int) returns (ok: bool)
      requires context.Valid()
      modifies context
      ensures context.Valid()
      ensures ok <==> ActiveItemIndex(old(context.items), listId, itemId).Some?
      ensures ok ==> var k := ActiveItemIndex(old(context.items), listId, itemId).value;
        context.items == old(context.items)[k := SoftDeleteItem(old(context.items)[k], context.clock)]
      ensures !ok ==> context.items == old(context.items)
      ensures ActiveItemIndex(context.items, listId, itemId).None?
      ensures context.lists == old(context.lists)
      ensures context.nextListId == old(context.nextListId) && context.nextItemId == old(context.nextItemId)
    {
      match ActiveItemIndex(context.items, listId, itemId)
      case None =>
        ok := false;
      case Some(k) =>
        var now := context.Now();
        SoftDeletedItemIsGone(context.items, k, now);
        context.items := context.items[k := SoftDeleteItem(context.items[k], now)];
        ok := true;
    }
  }
}

=== FILE: todo_list_service.dfy ===
/**
 * TodoListService: queries and soft-delete writes on the list table of a TodoContext.
 */
module TodoListServices {
  import opened Options
  import opened Entities
  import opened Queries
  import opened TodoData

  class TodoListService {
    const context: TodoContext

    constructor (context: TodoContext)
      ensures this.context == context
    {
      this.context := context;
    }

    /**
     * The lists, each with its items; deleted lists and deleted items only when
     * `includeDeleted`. Every visible row appears, as its DTO, and nothing else does.
     */
    function GetTodoLists(includeDeleted: bool): (r: seq<TodoListDto>)
      reads context
      ensures forall l :: l in context.lists && (!l.deleted || includeDeleted) ==>
        ListDto(l, ItemsOf(context.items, l.id, includeDeleted)) in r
      ensures forall d :: d in r ==> !d.deleted || includeDeleted
      ensures forall d :: d in r ==> exists l :: l in context.lists && d == ListDto(l, ItemsOf(context.items, l.id, includeDeleted))
      ensures forall d, it :: d in r && it in d.items ==>
        it in context.items && it.listId == d.id && (!it.deleted || includeDeleted)
    {
      var items := context.items;
      var rows := Where(context.lists, (l: TodoList) => !l.deleted || includeDeleted);
      var r := seq(|rows|, k requires 0 <= k < |rows| => ListDto(rows[k], ItemsOf(items, rows[k].id, includeDeleted)));
      forall l | l in context.lists && (!l.deleted || includeDeleted)
        ensures ListDto(l, ItemsOf(items, l.id, includeDeleted)) in r
      {
        var k :| 0 <= k < |rows| && rows[k] == l;
        assert r[k] == ListDto(l, ItemsOf(items, l.id, includeDeleted));
      }
      forall d | d in r
        ensures exists l :: l in context.lists && d == ListDto(l, ItemsOf(items, l.id, includeDeleted))
      {
        var k :| 0 <= k < |r| && r[k] == d;
        assert rows[k] in rows;
      }
      r
    }

    /** The active list with this id, with its active items; `None` (null) when there is none. */
    function GetTodoList(listId: int): (r: Option<TodoListDto>)
      reads context
      ensures r.None? <==> forall i :: 0 <= i < |context.lists| ==> context.lists[i].id != listId || context.lists[i].deleted
      ensures r.Some? ==> exists i :: 0 <= i < |context.lists| && context.lists[i].id == listId && !context.lists[i].deleted
                                    && r.value == ListDto(context.lists[i], ItemsOf(context.items, listId, false))
      ensures r.Some? ==> r.value.id == listId && !r.value.deleted
      ensures r.Some? ==> forall it :: it in r.value.items <==> it in context.items && it.listId == listId && !it.deleted
    {
      match ActiveListIndex(context.lists, listId)
      case None => None
      case Some(i) => Some(ListDto(context.lists[i], ItemsOf(context.items, listId, false)))
    }

    /**
     * Adds one active row under the next identity value, with the DTO's name and
     * ExternalId and both timestamps from one clock reading; returns it without items.
     */
    method CreateTodoList(dto: UpdateTodoListDto) returns (r: TodoListDto)
      requires context.Valid()
      modifies context
      ensures context.Valid()
      ensures var row := TodoList(old(context.nextListId), dto.name, context.clock, context.clock, false, dto.externalId);
        && context.lists == old(context.lists) + [row]
        && r == ListDto(row, [])
      ensures !HasListRow(old(context.lists), r.id)
      ensures old(context.clock) < context.clock
      ensures context.items == old(context.items) && context.nextItemId == old(context.nextItemId)
      ensures context.nextListId == old(context.nextListId) + 1
    {
      var now := context.Now();
      var row := TodoList(context.nextListId, dto.name, now, now, false, dto.externalId);
      ListRowsKept(context.lists, context.lists + [row], context.items);
      assert forall i :: 0 <= i < |context.lists| ==> (context.lists + [row])[i] == context.lists[i];
      context.lists := context.lists + [row];
      context.nextListId := context.nextListId + 1;
      r := ListDto(row, []);
    }

    /**
     * Renames the active list with this id and bumps its UpdatedAt; false, with nothing
     * changed, when there is no such list. The ExternalId of the DTO is not stored.
     */
    method UpdateTodoList(listId: int, dto: UpdateTodoListDto) returns (ok: bool)
      requires context.Valid()
      modifies context
      ensures context.Valid()
      ensures ok <==> ActiveListIndex(old(context.lists), listId).Some?
      ensures ok ==> var k := ActiveListIndex(old(context.lists), listId).value;
        context.lists == old(context.lists)[k := old(context.lists)[k].(name := dto.name, updatedAt := context.clock)]
      ensures !ok ==> context.lists == old(context.lists)
      ensures context.items == old(context.items)
      ensures context.nextListId == old(context.nextListId) && context.nextItemId == old(context.nextItemId)
    {
      match ActiveListIndex(context.lists, listId)
      case None =>
        ok := false;
      case Some(k) =>
        var now := context.Now();
        ListRowsKept(context.lists, context.lists[k := context.lists[k].(name := dto.name, updatedAt := now)], context.items);
        context.lists := context.lists[k := context.lists[k].(name := dto.name, updatedAt := now)];
        ok := true;
    }

    /**
     * Soft-deletes the active list with this id (its items are left as they are); false,
     * with nothing changed, when there is no such list. Afterwards no active list has
     * this id, so a repeated delete returns false.
     */
    method DeleteTodoList(listId: int) returns (ok: bool)
      requires context.Valid()
      modifies context
      ensures context.Valid()
      ensures ok <==> ActiveListIndex(old(context.lists), listId).Some?
      ensures ok ==> var k := ActiveListIndex(old(context.lists), listId).value;
        context.lists == old(context.lists)[k := SoftDeleteList(old(context.lists)[k], context.clock)]
      ensures !ok ==> context.lists == old(context.lists)
      ensures ActiveListIndex(context.lists, listId).None?
      ensures context.items == old(context.items)
      ensures context.nextListId == old(context.nextListId) && context.nextItemId == old(context.nextItemId)
    {
      match ActiveListIndex(context.lists, listId)
      case None =>
        ok := false;
      case Some(k) =>
        var now := context.Now();
        SoftDeletedListIsGone(context.lists, k, now);
        ListRowsKept(context.lists, context.lists[k := SoftDeleteList(context.lists[k], now)], context.items);
        context.lists := context.lists[k := SoftDeleteList(context.lists[k], now)];
        ok := true;
    }
  }
}
